=== FILE: README.md ===
# Color Wars: rules engine and search, in Dafny

This project models the core of Color Wars, a two-player chain-reaction game
played on a fixed 5×5 grid. Each player owns stacks of squares. A move adds one
to a stack the mover owns. A stack that reaches 4 pops: it empties, and each
orthogonal neighbour is captured by the mover and grows by one. A neighbour that
reaches 4 in turn is pushed onto a last-in, first-out stack of pending pops. The
game is over when exactly one player owns squares. On top of the rules sits a
minimax search with alpha-beta pruning and a transposition table. An
iterative-deepening root loop drives it.

Modules follow the source files:

- `Players` (player.rs): the two players and `Opponent`.
- `Coords` (coordinates.rs): bounds-checked coordinates and their neighbours in
  the order north, south, west, east.
- `Squares` (square.rs): a square is `Empty` or an `Occupied` stack with an owner
  and a height.
- `Boards` (board.rs): the grid, the starting position, the row-major list of
  legal moves, and the end-of-game test. It also has the chain reaction. The pop
  stack is drained by `Drain`, a recursive function bounded by a `fuel` count of
  pops. `MakeMove` gives `None` only when the fuel runs out.
- `Engine` (engine.rs): the static evaluation with its `i32` sentinels, the
  alpha-beta recursion, and the root loop. The alpha-beta recursion threads the
  table as a returned `map`. The root loop runs a given number of passes, not
  until a deadline.
- `Scenarios`: the unit tests of board.rs and the game-flow test, each stated as
  a lemma about the model.
- `Optional`: the `Option` type.
- `Sequences`: distinctness of a sequence and three small facts: a sequence with
  no members is empty, a distinct sequence whose only member is `x` is `[x]`, and
  a suffix splits at any later index.

## Model

| member | source | states |
|---|---|---|
| Players.Opponent | src/player.rs:10-15 | the opponent of a player is never that player |
| Players.OpponentInvolution | src/player.rs:10-15 | taking the opponent twice gives back the player |
| Players.TwoPlayers | src/player.rs:3-15 | every player is `p` or the opponent of `p`, and is the opponent exactly when it differs from `p` |
| Coords.New | src/coordinates.rs:21-25 | construction succeeds exactly when row and column are both below 5, and then keeps them; an out-of-range argument gives `None` |
| Coords.NewRoundTrip | src/coordinates.rs:21-35 | rebuilding coordinates from their row and column gives the same coordinates |
| Coords.NeighborsAreAdjacent | src/coordinates.rs:38-59 | the neighbours are exactly the on-board cells at Manhattan distance 1, listed north, south, west, east |
| Coords.NeighborsDistinct | src/coordinates.rs:38-59 | a cell is not its own neighbour and no neighbour is listed twice |
| Coords.NeighborCount | src/coordinates.rs:38-59 | a corner has 2 neighbours, another border cell 3, an interior cell 4 |
| Coords.NeighborSymmetry | src/coordinates.rs:38-59 | `b` neighbours `a` exactly when `a` neighbours `b` |
| Squares.Square.Owner | src/square.rs:37-43 | a square has no owner exactly when it is empty |
| Squares.Square.Value | src/square.rs:45-52 | an occupied square's value is its stack height |
| Squares.Square.Increment | src/square.rs:54-60 | incrementing keeps the owner, adds one to an occupied square, and leaves an empty square at 0 |
| Squares.Square.SetOwner | src/square.rs:62-70 | setting the owner makes `p` the owner and keeps the value, so an empty square becomes a stack of 0 |
| Squares.Square.Reset | src/square.rs:72-75 | a reset square has no owner and value 0 |
| Squares.Default | src/square.rs:19-24 | the default square has no owner and value 0 |
| Squares.New | src/square.rs:30-35 | a new square has the given owner and value |
| Squares.DeterminedByAccessors | src/square.rs:37-52 | two squares with the same owner, and the same value when owned, are equal |
| Squares.SetOwnerThenIncrement | src/square.rs:54-70 | taking over a square and incrementing it gives the new owner with one more than the old value; an empty square becomes a stack of 1 |
| Squares.ResetIdempotent | src/square.rs:72-75 | resetting gives the default square, and resetting again changes nothing |
| Boards.Put | src/board.rs:46-50 | writing one square changes that square and no other |
| Boards.OwnedFrom | src/board.rs:57-69 | the scan from a row-major position lists exactly the squares of the player from there on, in strictly increasing row-major order |
| Boards.CountFromMatchesOwned | src/board.rs:117-130 | counting a player's squares gives the length of the list of that player's squares |
| Boards.Count | src/board.rs:117-130 | a player's count is at most 25 and is positive exactly when the player owns a square |
| Boards.CountsFit | src/board.rs:117-130 | the two players' counts add up to at most 25 |
| Boards.NewBoard | src/board.rs:19-28 | a new board is empty with the given player to move |
| Boards.Setup | src/board.rs:43-53 | the setup holds a Red 3 and a Blue 3 (Blue's written last) on an otherwise empty grid, Red to move |
| Boards.ValidMoves | src/board.rs:57-69 | a cell is a legal move exactly when the player to move owns it |
| Boards.ValidMovesOrdered | src/board.rs:57-69 | the legal moves come in row-major order, each square once |
| Boards.IsGameOver | src/board.rs:117-133 | the game is over exactly when one player owns squares and the other owns none |
| Boards.BothOwnNotOver | src/board.rs:117-133 | while both players own a square the game is not over |
| Boards.Capture | src/board.rs:96-101 | a captured neighbour belongs to the mover with one more than it had; nothing else changes |
| Boards.Drain | src/board.rs:91-108 | an empty stack ends the drain at once; a completed drain pops at most `fuel` cells, the top of the stack first |
| Boards.SpreadEffect | src/board.rs:96-107 | capturing a pop's neighbours changes only those neighbours and only appends to the stack; without repeats, each is captured with one more, and the pushes are exactly the neighbours that reach 4, in the order the neighbours are listed |
| Boards.SpreadOrder | src/board.rs:96-107 | for a neighbour list without repeats, the stack afterwards is the old stack followed by the neighbours that reach 4, in list order |
| Boards.SpreadPushesOnce | src/board.rs:96-107 | capturing a list of neighbours without repeats pushes each at most once |
| Boards.PopStep | src/board.rs:92-107 | one pop empties the top cell, captures each neighbour with one more, leaves other cells alone, keeps the rest of the stack below, and replaces the top by exactly the neighbours that reach 4, each once |
| Boards.PopStepOrder | src/board.rs:92-107 | after one pop the stack is the rest of the old stack followed by the neighbours that reach 4 in the order north, south, west, east, so the last of them pops next |
| Boards.DrainByPops | src/board.rs:92-108 | the drain is one full pop followed by the drain of what that pop leaves |
| Boards.DrainOnlyMoverWrites | src/board.rs:92-108 | after a completed drain every square is unchanged, empty, or owned by the mover |
| Boards.DrainPopsPending | src/board.rs:92-108 | a completed drain pops every cell that was pending |
| Boards.DrainFootprint | src/board.rs:92-108 | a completed drain changes only pending cells, cells still to capture, and neighbours of popped cells |
| Boards.DrainSettles | src/board.rs:86-108 | if every square at 4 or more is pending, a completed drain leaves no square at 4 or more |
| Boards.Resolve | src/board.rs:83-108 | the chain reaction of a placement changes only the placement and the neighbours of popped cells, and on a board with no square at 4 or more it leaves none |
| Boards.MakeMove | src/board.rs:80-112 | a completed move passes the turn to the opponent; every square afterwards is as before, empty, or the mover's; only the placement and neighbours of popped cells change; and no square is left at 4 or more if none was |
| Boards.ResolveWithoutPop | src/board.rs:84-89 | a placement that stays below 4 grows by one and nothing else changes |
| Boards.MoveWithoutPop | src/board.rs:80-112 | a move whose placement stays below 4 completes, grows the placement by one, and changes nothing else |
| Boards.PopAlone | src/board.rs:92-107 | the pop of a lone pending cell empties it, captures its neighbours, and leaves as the stack exactly the neighbours that reach 4, in neighbour order |
| Boards.DrainSinglePop | src/board.rs:92-108 | a lone pending cell whose neighbours all stay below 4 is the only pop |
| Boards.ResolveSinglePop | src/board.rs:84-108 | a placement at 3 whose neighbours hold less than 3 pops exactly once: it empties, each neighbour becomes the mover's with one more, and nothing else changes |
| Boards.MoveSinglePop | src/board.rs:80-112 | the same single pop seen through a move, which also passes the turn |
| Boards.MoveKeepsOpponentSquares | src/board.rs:96-101 | after a move, every square of the new player to move is as it was before the move |
| Boards.SetupInRange | src/board.rs:43-53 | the setup leaves every occupied square holding between 1 and 3 |
| Boards.DrainKeepsPositive | src/board.rs:92-108 | if every occupied square holds at least one before a completed drain, so does every occupied square after it: a pop empties its cell and a capture only adds one |
| Boards.MoveKeepsPositive | src/square.rs:7-8 | a completed move keeps every occupied square at 1 or more, and from a board whose occupied squares all hold 1 to 3 it leaves them all at 1 to 3, the range square.rs documents |
| Scenarios.OpeningMoves | src/board.rs:155-161 | in a fresh setup each player's only legal move is their own square |
| Scenarios.OnlyMove | src/board.rs:57-69 | when the player to move owns exactly one square, that square is the whole list of moves |
| Scenarios.OpeningPop | src/board.rs:163-179 | Red's first move pops its 3 into Red 1s on every neighbour, passes the turn, and leaves Blue's 3 alone |
| Scenarios.SimplePop | src/board.rs:163-179 | with Red at (0,0) and Blue at (4,4), Red's move empties (0,0) and makes (1,0) and (0,1) Red 1s |
| Scenarios.PopCapturesOpponent | src/board.rs:181-192 | a Blue 2 next to Red's popping 3 becomes a Red 3 |
| Scenarios.ChainResolve | src/board.rs:194-212 | two Red 3s at (0,0) and (0,1) pop in that order, leaving (0,1) empty and (0,0), (0,2), (1,1), (1,0) Red 1s |
| Scenarios.ChainReaction | src/board.rs:194-212 | the same chain reaction through a move |
| Scenarios.GameOverTest | src/board.rs:214-220 | the empty board is not over; a board with a single Red square is |
| Scenarios.OpeningTurns | src/tests/game_flow.rs:4-34 | from any two separated starting squares the setup is not over and Red's only move is its own square; Red's pop leaves Red 1s around an empty square and Blue's 3 alone, and passes the turn; Blue's only move is then its own square, whose pop empties it, takes all its neighbours for Blue and passes the turn back; a Red square out of Blue's reach keeps the game going |
| Scenarios.CornerOpeningTurns | src/tests/game_flow.rs:4-34 | from the corners (0,0) and (4,4): the setup is not over, Red is to move with the single move (0,0); afterwards (0,0) has no owner, (0,1) and (1,0) are Red, Blue is to move with the single move (4,4); after it (4,4) has no owner, (4,3) and (3,4) are Blue, Red is to move, and the game is not over |
| Engine.Evaluate | src/engine.rs:14-47 | the score is `i32::MAX` exactly when only Red owns squares and `i32::MIN` exactly when only Blue does, so it is a sentinel exactly when the game is over; otherwise it is Red's count minus Blue's, between -25 and 25 |
| Engine.Scan | src/engine.rs:14-47 | the row-by-column scan that adds one per Red square and takes one per Blue square computes `Evaluate` |
| Engine.AlphaBeta | src/engine.rs:112-169 | a terminal board is evaluated and a deep-enough cached board answered, both leaving the table alone; the table never loses a board; any other search leaves the board cached with its score, stored at exactly its depth on a miss, and a maximizing miss never scores below `-i32::MAX`; on a miss with moves, the first move's child is searched and a maximizing score is at least its score, a minimizing one at most; and if that first child already reaches `beta` (maximizing) or `alpha` (minimizing), the search stops there, returning that score and caching it |
| Engine.MaxLoop | src/engine.rs:122-143 | the maximizing loop never ends below its running value, never drops a table entry, and searches the current move's child, ending at or above that child's score; when that child lifts the running value to `beta` or more the loop breaks: it returns that value and the child's table without searching further |
| Engine.MinLoop | src/engine.rs:145-167 | the minimizing loop never ends above its running value, never drops a table entry, and searches the current move's child, ending at or below that child's score; when that child lowers the running value to `alpha` or less the loop breaks, returning that value and the child's table |
| Engine.MaxLoopUncut | src/engine.rs:125-141 | a maximizing loop that ends below `beta` never took the cut-off: it equals the same loop with the break removed, which searches every remaining move |
| Engine.MinLoopUncut | src/engine.rs:149-165 | a minimizing loop that ends above `alpha` never took the cut-off: it equals the same loop with the break removed |
| Engine.AlphaBetaUncut | src/engine.rs:122-167 | a searched uncached node scoring inside its window (below `beta` when maximizing, above `alpha` when minimizing) has the score of searching all its moves without cut-off |
| Engine.AlphaBetaAgain | src/engine.rs:113-120 | searching a board again with the table its search returned gives the same score and table, whatever the window or side |
| Engine.MaxLoopOnePly | src/engine.rs:122-141 | at depth one the maximizing loop equals the plain one-ply maximum when it stays below `beta`, and is a lower bound of it otherwise, leaving the table alone |
| Engine.MinLoopOnePly | src/engine.rs:146-165 | at depth one the minimizing loop equals the plain one-ply minimum when it stays above `alpha`, and is an upper bound of it otherwise |
| Engine.AlphaBetaOnePlyMax | src/engine.rs:112-144 | a one-ply maximizing search of a live, uncached board equals the one-ply maximum below `beta`, is a lower bound of it at or above `beta`, and caches its score at depth one |
| Engine.AlphaBetaOnePlyMin | src/engine.rs:145-168 | a one-ply minimizing search of a live, uncached board equals the one-ply minimum above `alpha`, is an upper bound of it at or below `alpha`, and caches its score at depth one |
| Engine.RootStep | src/engine.rs:82-99 | a root move completes its child search; if the child's score strictly improves on the best for the side to move, that score becomes the best score and the move the best move, otherwise both stay; the best score never worsens; the window only narrows, and ends with beta at or below the best score and alpha at or above it |
| Engine.RootPass | src/engine.rs:82-100 | over a pass the best move is the old one or one of the pass's moves, and it changes only if the best score strictly improves; a changed best comes with a score that some search of that move's reply returned, which fixes the score only when that reply ends the game (a cached reply may carry any stored score) |
| Engine.Passes | src/engine.rs:81-102 | over any number of passes the best move stays legal and changes only with a strict improvement of the best score; the best pair is the initial one or a legal move with a score some search of its reply returned, a clause that fixes the score only for a game-ending reply |
| Engine.Search | src/engine.rs:62-106 | the returned move is legal; with no pass it is the first legal move with the worst score for the side to move; any other move comes with a strictly better score, one that some search of the returned move's reply produced, which fixes the score only for a game-ending reply |
| Engine.ChooseBest | src/engine.rs:87-96 | no scored move and not the starting best is strictly better for the side to move than the choice the root loop makes |
| Engine.ChooseFirst | src/engine.rs:87-96 | unless the choice keeps the starting pair, it is a scored move with its own score, strictly better than the starting score and than every earlier move's score, so ties go to the earliest move |
| Engine.RootPassOnePly | src/engine.rs:82-99 | a pass at depth one completes exactly when every remaining move completes; it then makes the choice among those moves scored by the evaluations of the boards they lead to, and leaves the table alone |
| Engine.SearchOnePass | src/engine.rs:62-106 | one pass of the search completes exactly when every legal move completes, and returns the choice among all legal moves scored by the evaluations of their boards, starting from the worst score and the first move |
| Engine.PassesLast | src/engine.rs:81-102 | each pass searches one ply deeper than the one before: `n + 1` passes from `depth` are `n` passes followed by a full pass at depth `depth + n` |
| Engine.PassesLastStep | src/engine.rs:81-102 | once the first pass completes, `n + 1` passes are `n` passes followed by a full pass at depth `depth + n` |
| Engine.PassesFirst | src/engine.rs:81-102 | a single pass is a full pass at the starting depth |


## Left out

- The command-line front ends and the crate wiring are not modelled: cli.rs, bin/color_wars_cli.rs, main.rs and lib.rs are I/O and module plumbing. Only the 5×5 board size is kept, as `ROWS` and `COLUMNS`.
- The wall clock in `search` is not modelled. `Instant::now`, `elapsed() < time` and the `dbg!` line become a `passes` count. A zero count runs no pass, just as a zero time budget does.
- Square values are unbounded naturals: the `u8` in square.rs could wrap or panic past 255, and that is not modelled.
- Boards.Drain: does not prove that a chain reaction ends. Whether it always stops is not evident from the code, so at most `fuel` pops run and `None` reports that the fuel ran out. `MakeMove`, `AlphaBeta` and `Search` pass that `None` on.
- The `assert!` in `make_move` is the precondition `placement in ValidMoves(b)`. The panic of `Coordinates::new` is `None` from `Coords.New`.
- Engine.Search: the precondition that the side to move has a legal move stands for the panic of `placement_evaluations[0]` on an empty move list (engine.rs:75).
- Engine.Search: for more than one pass, the returned score is tied to the returned move only as the score of some completed search of that move's reply (`Engine.RootScored`). A cached reply may carry any stored score, so this fixes the score only when the reply ends the game. The root loop itself is pinned down by `Engine.RootStep` for one root move, by `Engine.RootPassOnePly` and `Engine.SearchOnePass` for a pass at depth one, and by `Engine.PassesLast` for how the passes deepen; scores of deeper passes are not related to plain minimax, for the reason given under Engine.AlphaBeta.
- `HashMap` hashing is not modelled. The transposition table is a `map` keyed by the `Board` value.
- Engine.AlphaBeta: equality with plain minimax is proved only one ply deep (`AlphaBetaOnePlyMax`, `AlphaBetaOnePlyMin`). Deeper searches store scores cut off by the window as if they were exact. They also reuse them from the table under other windows, so no such equality holds in general.
- board.rs calls `Square::empty()` and `Square::occupied(..)`, which square.rs does not define. They are read as `Square::default()` and `Square::new(..)`.

How the root loop of `search` behaves, as engine.rs writes it:

- After every root move, `alpha` becomes `max(alpha, best)` and `beta` becomes `min(beta, best)`, whichever side is to move (engine.rs:98-99). `Engine.RootStep` states the consequence: after any root move, `beta <= best <= alpha`.
- The best move and score change as soon as a root move strictly improves them (engine.rs:87-96), inside the pass.
- Whether another pass runs depends only on the elapsed time when the pass starts (engine.rs:81). No estimate of the next pass's duration is made, and a zero budget runs no pass.

=== FILE: board.dfy ===
/**
 * The game board: a fixed grid of squares plus the player to move, the list
 * of legal moves, move application with its chain reaction of pops, and the
 * end-of-game test.
 */
module Boards {

  import opened Optional
  import opened Players
  import opened Sequences
  import opened Coords
  import opened Squares

  /** Number of cells of the board. */
  const CELLS: nat := ROWS * COLUMNS

  predicate IsGrid(g: seq<seq<Square>>) {
    |g| == ROWS && forall i :: 0 <= i < |g| ==> |g[i]| == COLUMNS
  }

  /** A ROWS x COLUMNS grid of squares, indexed by row then column. */
  type Grid = g: seq<seq<Square>> | IsGrid(g) witness seq(ROWS, _ => seq(COLUMNS, _ => Empty))

  function At(g: Grid, c: Coordinates): Square {
    g[c.row][c.column]
  }

  /** The grid with the square at `c` replaced by `s`. */
  function Put(g: Grid, c: Coordinates, s: Square): (r: Grid)
    ensures forall d: Coordinates {:trigger At(r, d)} :: At(r, d) == if d == c then s else At(g, d)
  {
    g[c.row := g[c.row][c.column := s]]
  }

  /** Position of a cell in row-major order. */
  function Index(c: Coordinates): (k: nat)
    ensures k < CELLS
  {
    c.row * COLUMNS + c.column
  }

  /** The cell at row-major position `k`. */
  function CellOf(k: nat): (c: Coordinates)
    requires k < CELLS
  {
    Position(k / COLUMNS, k % COLUMNS)
  }

  /** `CellOf` inverts `Index`: the cell at position `k` is the only cell with index `k`. */
  lemma CellOfIndex(k: nat)
    requires k < CELLS
    ensures Index(CellOf(k)) == k
    ensures forall c: Coordinates {:trigger Index(c)} :: Index(c) == k ==> c == CellOf(k)
  {
  }

  /**
   * The cells owned by `p` at row-major positions `k` and later, in
   * row-major order. The grid leads the `decreases` clause although it never
   * changes: that way only a call on a constant grid, not every call from
   * position 0, is expanded all the way down by the verifier.
   */
  function OwnedFrom(g: Grid, p: Player, k: nat): (r: seq<Coordinates>)
    requires k <= CELLS
    ensures forall c: Coordinates :: c in r <==> k <= Index(c) && At(g, c).Owner() == Some(p)
    ensures RowMajor(r)
    ensures |r| <= CELLS - k
    decreases g, CELLS - k
  {
    if k == CELLS then []
    else
      CellOfIndex(k);
      var c := CellOf(k);
      var rest := OwnedFrom(g, p, k + 1);
      if At(g, c).Owner() == Some(p) then
        assert |rest| > 0 ==> rest[0] in rest;
        RowMajorCons(c, rest);
        [c] + rest
      else
        rest
  }

  /** Each cell comes strictly after the one before it in row-major order. */
  ghost predicate RowMajor(s: seq<Coordinates>)
    decreases |s|
  {
    |s| <= 1 || (Index(s[0]) < Index(s[1]) && RowMajor(s[1..]))
  }

  /** Row-major order is strict: any earlier cell has a smaller index, so no cell repeats. */
  lemma {:induction false} RowMajorOrdered(s: seq<Coordinates>)
    requires RowMajor(s)
    ensures forall i, j :: 0 <= i < j < |s| ==> Index(s[i]) < Index(s[j])
    ensures Distinct(s)
    decreases |s|
  {
    if |s| > 1 {
      var t := s[1..];
      RowMajorOrdered(t);
      forall i, j | 0 <= i < j < |s|
        ensures Index(s[i]) < Index(s[j])
      {
        assert s[j] == t[j - 1];
        if i > 0 {
          assert s[i] == t[i - 1];
        } else if j > 1 {
          assert Index(t[0]) < Index(t[j - 1]);
        }
      }
    }
  }

  /** A cell placed before a row-major list whose cells all come after it keeps it row-major. */
  lemma RowMajorCons(c: Coordinates, s: seq<Coordinates>)
    requires RowMajor(s) && (|s| > 0 ==> Index(c) < Index(s[0]))
    ensures RowMajor([c] + s)
  {
    assert ([c] + s)[1..] == s;
  }

  /** Number of squares owned by `p` at row-major positions `k` and later (same `decreases` as `OwnedFrom`). */
  function CountFrom(g: Grid, p: Player, k: nat): (n: nat)
    requires k <= CELLS
    ensures n <= CELLS - k
    decreases g, CELLS - k
  {
    if k == CELLS then 0
    else (if At(g, CellOf(k)).Owner() == Some(p) then 1 else 0) + CountFrom(g, p, k + 1)
  }

  /** The counting loop and the move-listing loop agree on how many squares `p` owns. */
  lemma {:induction false} CountFromMatchesOwned(g: Grid, p: Player, k: nat)
    requires k <= CELLS
    ensures CountFrom(g, p, k) == |OwnedFrom(g, p, k)|
    decreases CELLS - k
  {
    if k < CELLS {
      CountFromMatchesOwned(g, p, k + 1);
      var rest := OwnedFrom(g, p, k + 1);
      if At(g, CellOf(k)).Owner() == Some(p) {
        assert OwnedFrom(g, p, k) == [CellOf(k)] + rest;
      } else {
        assert OwnedFrom(g, p, k) == rest;
      }
    }
  }

  /** Number of squares owned by `p`; it is positive exactly when `p` owns some square. */
  function Count(g: Grid, p: Player): (n: nat)
    ensures n <= CELLS
    ensures n > 0 <==> exists c: Coordinates :: At(g, c).Owner() == Some(p)
  {
    CountFromMatchesOwned(g, p, 0);
    OwnsSome(g, p);
    CountFrom(g, p, 0)
  }

  /** `p` owns some square exactly when the listing of its squares is non-empty. */
  lemma OwnsSome(g: Grid, p: Player)
    ensures |OwnedFrom(g, p, 0)| > 0 <==> exists c: Coordinates :: At(g, c).Owner() == Some(p)
  {
    var r := OwnedFrom(g, p, 0);
    if |r| > 0 {
      assert r[0] in r;
    } else {
      NoneOwned(g, p, 0);
    }
  }

  /** With no squares listed for `p`, `p` owns no square. */
  lemma NoneOwned(g: Grid, p: Player, k: nat)
    requires k <= CELLS && |OwnedFrom(g, p, k)| == 0
    ensures forall c: Coordinates :: k <= Index(c) ==> At(g, c).Owner() != Some(p)
  {
    forall c: Coordinates | k <= Index(c)
      ensures At(g, c).Owner() != Some(p)
    {
      assert c !in OwnedFrom(g, p, k);
    }
  }

  /** The two players together own at most every cell once. */
  lemma {:induction false} CountsFitFrom(g: Grid, k: nat)
    requires k <= CELLS
    ensures CountFrom(g, Red, k) + CountFrom(g, Blue, k) <= CELLS - k
    decreases CELLS - k
  {
    if k < CELLS {
      CountsFitFrom(g, k + 1);
    }
  }

  lemma CountsFit(g: Grid)
    ensures Count(g, Red) + Count(g, Blue) <= CELLS
  {
    CountsFitFrom(g, 0);
  }

  datatype Board = Board(grid: Grid, turn: Player)

  /** An empty board with `turn` to move. */
  function NewBoard(turn: Player): (b: Board)
    ensures b.turn == turn
    ensures forall c: Coordinates :: At(b.grid, c) == Empty
  {
    Board(seq(ROWS, _ => seq(COLUMNS, _ => Empty)), turn)
  }

  /**
   * The starting position: a Red stack of 3 at `red`, a Blue stack of 3 at
   * `blue` (written second, so it wins if the two coincide), Red to move.
   */
  function Setup(red: Coordinates, blue: Coordinates): (b: Board)
    ensures b.turn == Red
    ensures At(b.grid, blue) == Occupied(Blue, 3)
    ensures red != blue ==> At(b.grid, red) == Occupied(Red, 3)
    ensures forall c: Coordinates :: c != red && c != blue ==> At(b.grid, c) == Empty
  {
    var b := NewBoard(Red);
    var g := Put(b.grid, red, Squares.New(Red, 3));
    Board(Put(g, blue, Squares.New(Blue, 3)), Red)
  }

  /** The squares of the player to move, in row-major order, each once. */
  function ValidMoves(b: Board): (r: seq<Coordinates>)
    ensures forall c: Coordinates :: c in r <==> At(b.grid, c).Owner() == Some(b.turn)
  {
    OwnedFrom(b.grid, b.turn, 0)
  }

  /** The moves come in row-major order, each square once. */
  lemma ValidMovesOrdered(b: Board)
    ensures RowMajor(ValidMoves(b))
    ensures Distinct(ValidMoves(b))
  {
    RowMajorOrdered(ValidMoves(b));
  }

  /** Someone owns a square of the board. */
  ghost predicate Owns(g: Grid, p: Player) {
    exists c: Coordinates :: At(g, c).Owner() == Some(p)
  }

  /**
   * The game is over when one player has squares and the other has none; a
   * board where neither has any is not over.
   */
  function IsGameOver(b: Board): (r: bool)
    ensures r <==> Owns(b.grid, Red) != Owns(b.grid, Blue)
  {
    var red := Count(b.grid, Red);
    var blue := Count(b.grid, Blue);
    (red > 0 || blue > 0) && (red == 0 || blue == 0)
  }

  /** While both players own a square, the game goes on. */
  lemma BothOwnNotOver(b: Board, red: Coordinates, blue: Coordinates)
    requires At(b.grid, red).Owner() == Some(Red) && At(b.grid, blue).Owner() == Some(Blue)
    ensures !IsGameOver(b)
  {
  }

  // ---------------------------------------------------------------------
  // Chain reaction
  // ---------------------------------------------------------------------

  /** Result of draining the pop stack: the grid and the cells popped, in order. */
  datatype Chain = Chain(grid: Grid, popped: seq<Coordinates>)

  /** A neighbour of a popping cell is taken over by `mover` and grows by one. */
  function Capture(g: Grid, mover: Player, n: Coordinates): (r: Grid)
    ensures At(r, n) == Occupied(mover, At(g, n).Value() + 1)
    ensures forall c: Coordinates {:trigger At(r, c)} :: c != n ==> At(r, c) == At(g, c)
  {
    SetOwnerThenIncrement(At(g, n), mover);
    Put(g, n, At(g, n).SetOwner(mover).Increment())
  }

  /** The cell popped next: the top of the stack. */
  function Top(pending: seq<Coordinates>): Coordinates
    requires |pending| > 0
  {
    pending[|pending| - 1]
  }

  /**
   * Drains the stack of pops. `todo` holds the neighbours of the cell being
   * popped that are still to be captured; each captured neighbour that
   * reaches 4 is pushed. When `todo` is empty the top of the stack is popped
   * (last in, first out): it is emptied and its neighbours become the new
   * `todo`. Whether this always stops is not evident, so at most `fuel` pops
   * are performed, and `None` reports that the fuel ran out first.
   */
  function Drain(g: Grid, mover: Player, pending: seq<Coordinates>, todo: seq<Coordinates>, fuel: nat): (r: Option<Chain>)
    ensures |todo| == 0 && |pending| == 0 ==> r == Some(Chain(g, []))
    ensures r.Some? ==> |r.value.popped| <= fuel
    ensures r.Some? && |todo| == 0 && |pending| > 0 ==>
      |r.value.popped| > 0 && r.value.popped[0] == Top(pending)
    decreases fuel, |todo|
  {
    if |todo| > 0 then
      var n := todo[0];
      var h := Capture(g, mover, n);
      Drain(h, mover, if At(h, n).Value() >= 4 then pending + [n] else pending, todo[1..], fuel)
    else if |pending| == 0 then Some(Chain(g, []))
    else if fuel == 0 then None
    else
      var t := Top(pending);
      match Drain(Put(g, t, At(g, t).Reset()), mover, pending[..|pending| - 1], Neighbors(t), fuel - 1)
      case None => None
      case Some(rest) => Some(Chain(rest.grid, [t] + rest.popped))
  }

  /**
   * Captures every neighbour in `ns`, in order, pushing each one that reaches
   * 4 on `pending`: the inner loop of a pop, as one function.
   */
  function Spread(g: Grid, mover: Player, ns: seq<Coordinates>, pending: seq<Coordinates>): (Grid, seq<Coordinates>)
    decreases |ns|
  {
    if |ns| == 0 then (g, pending)
    else
      var n := ns[0];
      var h := Capture(g, mover, n);
      Spread(h, mover, ns[1..], if At(h, n).Value() >= 4 then pending + [n] else pending)
  }

  /**
   * The squares of `ns` that one more would bring to 4 or more, in the order
   * of `ns`: the ones a spread over `ns` pushes, in the order it pushes them.
   */
  function Reaching(g: Grid, ns: seq<Coordinates>): seq<Coordinates>
    decreases |ns|
  {
    if |ns| == 0 then []
    else (if At(g, ns[0]).Value() + 1 >= 4 then [ns[0]] else []) + Reaching(g, ns[1..])
  }

  /** `Reaching` looks only at the squares of `ns`. */
  lemma {:induction false} ReachingFrame(g: Grid, h: Grid, ns: seq<Coordinates>)
    requires forall c :: c in ns ==> At(h, c) == At(g, c)
    ensures Reaching(h, ns) == Reaching(g, ns)
    decreases |ns|
  {
    if |ns| > 0 {
      assert ns[0] in ns;
      assert forall c :: c in ns[1..] ==> c in ns;
      ReachingFrame(g, h, ns[1..]);
    }
  }

  /**
   * Spreading leaves the cells outside `ns` alone and only appends to the
   * stack; when `ns` has no repetitions, each of its cells is captured with
   * one more than it had, and exactly the ones reaching 4 are pushed, in
   * the order of `ns`.
   */
  lemma SpreadEffect(g: Grid, mover: Player, ns: seq<Coordinates>, pending: seq<Coordinates>)
    ensures var r := Spread(g, mover, ns, pending);
      && (forall c: Coordinates {:trigger At(r.0, c)} :: c !in ns ==> At(r.0, c) == At(g, c))
      && |r.1| >= |pending| && r.1[..|pending|] == pending
      && (forall c :: c in r.1[|pending|..] ==> c in ns)
    ensures var r := Spread(g, mover, ns, pending);
      Distinct(ns) ==>
        && (forall c: Coordinates {:trigger At(r.0, c)} :: c in ns ==>
              At(r.0, c) == Occupied(mover, At(g, c).Value() + 1))
        && (forall c :: c in r.1[|pending|..] <==> c in ns && At(g, c).Value() + 1 >= 4)
    ensures Distinct(ns) ==> Spread(g, mover, ns, pending).1 == pending + Reaching(g, ns)
  {
    SpreadCaptures(g, mover, ns, pending);
    if Distinct(ns) {
      SpreadOrder(g, mover, ns, pending);
    }
  }

  /** The captures and pushes of a spread, as a set: the induction behind `SpreadEffect`. */
  lemma {:induction false} SpreadCaptures(g: Grid, mover: Player, ns: seq<Coordinates>, pending: seq<Coordinates>)
    ensures var r := Spread(g, mover, ns, pending);
      && (forall c: Coordinates {:trigger At(r.0, c)} :: c !in ns ==> At(r.0, c) == At(g, c))
      && |r.1| >= |pending| && r.1[..|pending|] == pending
      && (forall c :: c in r.1[|pending|..] ==> c in ns)
    ensures var r := Spread(g, mover, ns, pending);
      Distinct(ns) ==>
        && (forall c: Coordinates {:trigger At(r.0, c)} :: c in ns ==>
              At(r.0, c) == Occupied(mover, At(g, c).Value() + 1))
        && (forall c :: c in r.1[|pending|..] <==> c in ns && At(g, c).Value() + 1 >= 4)
    decreases |ns|
  {
    if |ns| > 0 {
      var n := ns[0];
      var h := Capture(g, mover, n);
      var pushed := if At(h, n).Value() >= 4 then pending + [n] else pending;
      SpreadCaptures(h, mover, ns[1..], pushed);
      var r := Spread(g, mover, ns, pending);
      assert r == Spread(h, mover, ns[1..], pushed);
      assert r.1[|pending|..] == pushed[|pending|..] + r.1[|pushed|..] by {
        Sequences.SplitAt(r.1, |pending|, |pushed|);
        assert r.1[|pending|..|pushed|] == pushed[|pending|..];
      }
      assert forall c :: c in ns[1..] ==> c in ns;
      if Distinct(ns) {
        assert Distinct(ns[1..]);
        assert n !in ns[1..];
      }
    }
  }

  /** Spreading over a list without repetitions pushes exactly `Reaching`, in order. */
  lemma {:induction false} SpreadOrder(g: Grid, mover: Player, ns: seq<Coordinates>, pending: seq<Coordinates>)
    requires Distinct(ns)
    ensures Spread(g, mover, ns, pending).1 == pending + Reaching(g, ns)
    decreases |ns|
  {
    if |ns| > 0 {
      var n := ns[0];
      var h := Capture(g, mover, n);
      var pushed := if At(h, n).Value() >= 4 then pending + [n] else pending;
      assert Distinct(ns[1..]);
      assert n !in ns[1..];
      SpreadOrder(h, mover, ns[1..], pushed);
      ReachingFrame(g, h, ns[1..]);
      assert At(h, n).Value() == At(g, n).Value() + 1;
      assert pending + Reaching(g, ns) == pushed + Reaching(g, ns[1..]);
    }
  }

  /** Spreading over a list without repetitions pushes each square at most once. */
  lemma {:induction false} SpreadPushesOnce(g: Grid, mover: Player, ns: seq<Coordinates>, pending: seq<Coordinates>)
    requires Distinct(ns)
    ensures var r := Spread(g, mover, ns, pending);
      |r.1| >= |pending| && Distinct(r.1[|pending|..])
    decreases |ns|
  {
    if |ns| > 0 {
      var n := ns[0];
      var h := Capture(g, mover, n);
      var pushed := if At(h, n).Value() >= 4 then pending + [n] else pending;
      assert Distinct(ns[1..]);
      var r := Spread(h, mover, ns[1..], pushed);
      assert Spread(g, mover, ns, pending) == r;
      assert |r.1| >= |pushed| && Distinct(r.1[|pushed|..]) by {
        SpreadPushesOnce(h, mover, ns[1..], pushed);
      }
      var later := r.1[|pushed|..];
      assert r.1[..|pushed|] == pushed && n !in later by {
        SpreadEffect(h, mover, ns[1..], pushed);
        assert n !in ns[1..];
      }
      if |pushed| == |pending| {
        assert r.1[|pending|..] == later;
      } else {
        assert r.1[|pending|..] == [n] + later by {
          assert r.1[|pending|] == pushed[|pending|] == n;
        }
      }
    }
  }

  /**
   * One pop, in full: the top of the stack is emptied and removed, then each
   * of its neighbours is captured by `mover` and grows by one, and the ones
   * that reach 4 are pushed.
   */
  function PopStep(g: Grid, mover: Player, pending: seq<Coordinates>): (r: (Grid, seq<Coordinates>))
    requires |pending| > 0
    ensures At(r.0, Top(pending)) == Empty
    ensures forall n {:trigger At(r.0, n)} :: n in Neighbors(Top(pending)) ==>
      At(r.0, n) == Occupied(mover, At(g, n).Value() + 1)
    ensures forall c: Coordinates {:trigger At(r.0, c)} ::
      c != Top(pending) && c !in Neighbors(Top(pending)) ==> At(r.0, c) == At(g, c)
    ensures |r.1| >= |pending| - 1 && r.1[..|pending| - 1] == pending[..|pending| - 1]
    ensures forall c: Coordinates :: c in r.1[|pending| - 1..] <==>
      c in Neighbors(Top(pending)) && At(g, c).Value() + 1 >= 4
    ensures Distinct(r.1[|pending| - 1..])
  {
    var t := Top(pending);
    NeighborsDistinct(t);
    SpreadPushesOnce(Put(g, t, At(g, t).Reset()), mover, Neighbors(t), pending[..|pending| - 1]);
    SpreadEffect(Put(g, t, At(g, t).Reset()), mover, Neighbors(t), pending[..|pending| - 1]);
    Spread(Put(g, t, At(g, t).Reset()), mover, Neighbors(t), pending[..|pending| - 1])
  }

  /**
   * A pop pushes the neighbours that reach 4 in neighbour order (north,
   * south, west, east) on top of the rest of the stack, so the last of them
   * is the next to pop.
   */
  lemma PopStepOrder(g: Grid, mover: Player, pending: seq<Coordinates>)
    requires |pending| > 0
    ensures PopStep(g, mover, pending).1 == pending[..|pending| - 1] + Reaching(g, Neighbors(Top(pending)))
  {
    var t := Top(pending);
    var h := Put(g, t, At(g, t).Reset());
    NeighborsDistinct(t);
    ReachingFrame(g, h, Neighbors(t));
    SpreadOrder(h, mover, Neighbors(t), pending[..|pending| - 1]);
  }

  /** Running the pending captures of `todo` inside the drain is the same as spreading them first. */
  lemma {:induction false} DrainTodo(g: Grid, mover: Player, pending: seq<Coordinates>, todo: seq<Coordinates>, fuel: nat)
    ensures var s := Spread(g, mover, todo, pending);
      Drain(g, mover, pending, todo, fuel) == Drain(s.0, mover, s.1, [], fuel)
    decreases |todo|
  {
    if |todo| > 0 {
      var n := todo[0];
      var h := Capture(g, mover, n);
      DrainTodo(h, mover, if At(h, n).Value() >= 4 then pending + [n] else pending, todo[1..], fuel);
    }
  }

  /**
   * The drain is a repetition of whole pops: with a non-empty stack and
   * fuel left, it performs one `PopStep` and drains what that leaves.
   */
  lemma DrainByPops(g: Grid, mover: Player, pending: seq<Coordinates>, fuel: nat)
    requires |pending| > 0 && fuel > 0
    ensures var step := PopStep(g, mover, pending);
      var next := Drain(step.0, mover, step.1, [], fuel - 1);
      && (Drain(g, mover, pending, [], fuel).Some? <==> next.Some?)
      && (next.Some? ==>
            Drain(g, mover, pending, [], fuel).value == Chain(next.value.grid, [Top(pending)] + next.value.popped))
  {
    var t := Top(pending);
    var h := Put(g, t, At(g, t).Reset());
    var rest := pending[..|pending| - 1];
    DrainTodo(h, mover, rest, Neighbors(t), fuel - 1);
  }

  /** Each square of `h` is as in `g`, empty, or owned by `mover`. */
  ghost predicate OnlyMoverWrote(g: Grid, h: Grid, mover: Player) {
    forall c: Coordinates {:trigger At(h, c)} ::
      At(h, c) == At(g, c) || At(h, c) == Empty || At(h, c).Owner() == Some(mover)
  }

  lemma OnlyMoverWroteTransitive(g: Grid, h: Grid, k: Grid, mover: Player)
    requires OnlyMoverWrote(g, h, mover) && OnlyMoverWrote(h, k, mover)
    ensures OnlyMoverWrote(g, k, mover)
  {
    forall c: Coordinates
      ensures At(k, c) == At(g, c) || At(k, c) == Empty || At(k, c).Owner() == Some(mover)
    {
      assert At(h, c) == At(g, c) || At(h, c) == Empty || At(h, c).Owner() == Some(mover);
    }
  }

  /** A completed drain leaves every square it wrote empty or owned by the mover. */
  lemma {:induction false} DrainOnlyMoverWrites(g: Grid, mover: Player, pending: seq<Coordinates>, todo: seq<Coordinates>, fuel: nat)
    requires Drain(g, mover, pending, todo, fuel).Some?
    ensures OnlyMoverWrote(g, Drain(g, mover, pending, todo, fuel).value.grid, mover)
    decreases fuel, |todo|
  {
    var fin := Drain(g, mover, pending, todo, fuel).value.grid;
    if |todo| > 0 {
      var n := todo[0];
      var h := Capture(g, mover, n);
      DrainOnlyMoverWrites(h, mover, if At(h, n).Value() >= 4 then pending + [n] else pending, todo[1..], fuel);
      assert OnlyMoverWrote(g, h, mover);
      OnlyMoverWroteTransitive(g, h, fin, mover);
    } else if |pending| > 0 {
      var t := Top(pending);
      var h := Put(g, t, At(g, t).Reset());
      DrainOnlyMoverWrites(h, mover, pending[..|pending| - 1], Neighbors(t), fuel - 1);
      assert OnlyMoverWrote(g, h, mover);
      OnlyMoverWroteTransitive(g, h, fin, mover);
    }
  }

  /** `c` is a neighbour of one of the popped cells. */
  ghost predicate NearPop(c: Coordinates, popped: seq<Coordinates>) {
    exists i :: 0 <= i < |popped| && Adjacent(popped[i], c)
  }

  /** A completed drain pops every cell that was pending. */
  lemma {:induction false} DrainPopsPending(g: Grid, mover: Player, pending: seq<Coordinates>, todo: seq<Coordinates>, fuel: nat)
    requires Drain(g, mover, pending, todo, fuel).Some?
    ensures forall x :: x in pending ==> x in Drain(g, mover, pending, todo, fuel).value.popped
    decreases fuel, |todo|
  {
    if |todo| > 0 {
      var n := todo[0];
      var h := Capture(g, mover, n);
      DrainPopsPending(h, mover, if At(h, n).Value() >= 4 then pending + [n] else pending, todo[1..], fuel);
    } else if |pending| > 0 {
      var t := Top(pending);
      var rest := pending[..|pending| - 1];
      var h := Put(g, t, At(g, t).Reset());
      DrainPopsPending(h, mover, rest, Neighbors(t), fuel - 1);
      var popped := Drain(g, mover, pending, todo, fuel).value.popped;
      assert popped == [t] + Drain(h, mover, rest, Neighbors(t), fuel - 1).value.popped;
      forall x | x in pending
        ensures x in popped
      {
        if x != t {
          var i :| 0 <= i < |pending| && pending[i] == x;
          assert x == rest[i];
        }
      }
    }
  }

  /** Popping `t` before the cells of `popped` keeps every cell near a pop near a pop. */
  lemma NearPopCons(c: Coordinates, t: Coordinates, popped: seq<Coordinates>)
    ensures NearPop(c, popped) || Adjacent(t, c) <==> NearPop(c, [t] + popped)
  {
    if NearPop(c, popped) {
      var i :| 0 <= i < |popped| && Adjacent(popped[i], c);
      assert ([t] + popped)[i + 1] == popped[i];
    }
    if Adjacent(t, c) {
      assert ([t] + popped)[0] == t;
    }
    if NearPop(c, [t] + popped) && !Adjacent(t, c) {
      var i :| 0 <= i < |popped| + 1 && Adjacent(([t] + popped)[i], c);
      assert popped[i - 1] == ([t] + popped)[i];
    }
  }

  /**
   * A completed drain changes only cells that were pending or still to be
   * captured, and neighbours of popped cells.
   */
  lemma {:induction false} DrainFootprint(g: Grid, mover: Player, pending: seq<Coordinates>, todo: seq<Coordinates>, fuel: nat)
    requires Drain(g, mover, pending, todo, fuel).Some?
    ensures var ch := Drain(g, mover, pending, todo, fuel).value;
      forall c: Coordinates {:trigger At(ch.grid, c)} ::
        At(ch.grid, c) != At(g, c) ==> c in pending || c in todo || NearPop(c, ch.popped)
    decreases fuel, |todo|
  {
    var ch := Drain(g, mover, pending, todo, fuel).value;
    if |todo| > 0 {
      var n := todo[0];
      var h := Capture(g, mover, n);
      var pushed := if At(h, n).Value() >= 4 then pending + [n] else pending;
      DrainFootprint(h, mover, pushed, todo[1..], fuel);
      forall c: Coordinates | At(ch.grid, c) != At(g, c)
        ensures c in pending || c in todo || NearPop(c, ch.popped)
      {
        if c in pushed && c !in pending {
          assert c == n;
        } else if c in todo[1..] {
          assert c in todo;
        }
      }
    } else if |pending| > 0 {
      var t := Top(pending);
      var rest := pending[..|pending| - 1];
      var h := Put(g, t, At(g, t).Reset());
      DrainFootprint(h, mover, rest, Neighbors(t), fuel - 1);
      var inner := Drain(h, mover, rest, Neighbors(t), fuel - 1).value;
      assert ch.popped == [t] + inner.popped;
      NeighborsAreAdjacent(t);
      forall c: Coordinates | At(ch.grid, c) != At(g, c)
        ensures c in pending || c in todo || NearPop(c, ch.popped)
      {
        NearPopCons(c, t, inner.popped);
        if c != t && c in rest {
          assert c in pending;
        }
      }
    }
  }

  /** Every overfull square is waiting on the stack. */
  ghost predicate OverfullPending(g: Grid, pending: seq<Coordinates>) {
    forall c: Coordinates {:trigger At(g, c)} :: At(g, c).Value() >= 4 ==> c in pending
  }

  /** No square holds 4 or more: the state observed between moves. */
  ghost predicate Settled(g: Grid) {
    forall c: Coordinates {:trigger At(g, c)} :: At(g, c).Value() < 4
  }

  /** If every overfull square is pending, a completed drain leaves no overfull square. */
  lemma {:induction false} DrainSettles(g: Grid, mover: Player, pending: seq<Coordinates>, todo: seq<Coordinates>, fuel: nat)
    requires Drain(g, mover, pending, todo, fuel).Some?
    ensures OverfullPending(g, pending) ==> Settled(Drain(g, mover, pending, todo, fuel).value.grid)
    decreases fuel, |todo|
  {
    if OverfullPending(g, pending) {
      if |todo| > 0 {
        var n := todo[0];
        var h := Capture(g, mover, n);
        var pushed := if At(h, n).Value() >= 4 then pending + [n] else pending;
        assert OverfullPending(h, pushed) by {
          forall c: Coordinates | At(h, c).Value() >= 4
            ensures c in pushed
          {
            if c != n {
              assert At(g, c).Value() >= 4;
            }
          }
        }
        DrainSettles(h, mover, pushed, todo[1..], fuel);
      } else if |pending| > 0 {
        var t := Top(pending);
        var rest := pending[..|pending| - 1];
        var h := Put(g, t, At(g, t).Reset());
        assert OverfullPending(h, rest) by {
          forall c: Coordinates | At(h, c).Value() >= 4
            ensures c in rest
          {
            assert c != t && At(g, c).Value() >= 4;
            var i :| 0 <= i < |pending| && pending[i] == c;
            assert c == rest[i];
          }
        }
        DrainSettles(h, mover, rest, Neighbors(t), fuel - 1);
      }
    }
  }

  /**
   * The chain reaction started by incrementing `placement`: the grid after
   * the increment is drained from a stack holding `placement` if it
   * overflowed. Only the placement and neighbours of popped cells change,
   * and a board without overfull squares is left without any.
   */
  function Resolve(b: Board, placement: Coordinates, fuel: nat): (r: Option<Chain>)
    ensures r.Some? ==> forall c: Coordinates {:trigger At(r.value.grid, c)} ::
      c != placement && !NearPop(c, r.value.popped) ==> At(r.value.grid, c) == At(b.grid, c)
    ensures r.Some? && Settled(b.grid) ==> Settled(r.value.grid)
  {
    var s := At(b.grid, placement).Increment();
    var g := Put(b.grid, placement, s);
    var pending := if s.Value() >= 4 then [placement] else [];
    var r := Drain(g, b.turn, pending, [], fuel);
    if r.Some? then
      DrainFootprint(g, b.turn, pending, [], fuel);
      IncrementPending(b.grid, placement, g, pending);
      DrainSettles(g, b.turn, pending, [], fuel);
      r
    else r
  }

  /** On a board without overfull squares, only an incremented placement can be overfull. */
  lemma IncrementPending(g0: Grid, placement: Coordinates, g: Grid, pending: seq<Coordinates>)
    requires g == Put(g0, placement, At(g0, placement).Increment())
    requires pending == if At(g, placement).Value() >= 4 then [placement] else []
    ensures Settled(g0) ==> OverfullPending(g, pending)
  {
    if Settled(g0) {
      forall c: Coordinates
        ensures At(g, c).Value() >= 4 ==> c in pending
      {
        if c != placement {
          assert At(g, c) == At(g0, c);
        }
      }
    }
  }

  /**
   * Plays `placement` for the player to move: increments it, resolves the
   * chain reaction, then passes the turn. `None` only when the chain
   * reaction needs more than `fuel` pops. Every square of the result is as
   * before, empty, or the mover's; only the placement and neighbours of
   * popped cells change; and no square is left at 4 or more if none was.
   */
  function MakeMove(b: Board, placement: Coordinates, fuel: nat): (r: Option<Board>)
    requires placement in ValidMoves(b)
    ensures r.Some? <==> Resolve(b, placement, fuel).Some?
    ensures r.Some? ==> r.value.turn == Opponent(b.turn)
    ensures r.Some? ==> OnlyMoverWrote(b.grid, r.value.grid, b.turn)
    ensures r.Some? ==> forall c: Coordinates {:trigger At(r.value.grid, c)} ::
      c != placement && !NearPop(c, Resolve(b, placement, fuel).value.popped) ==> At(r.value.grid, c) == At(b.grid, c)
    ensures r.Some? && Settled(b.grid) ==> Settled(r.value.grid)
  {
    match Resolve(b, placement, fuel)
    case None => None
    case Some(ch) =>
      ResolveOnlyMoverWrites(b, placement, fuel);
      Some(Board(ch.grid, Opponent(b.turn)))
  }

  /** A completed chain reaction of one of the mover's squares writes only empty squares and the mover's. */
  lemma ResolveOnlyMoverWrites(b: Board, placement: Coordinates, fuel: nat)
    requires At(b.grid, placement).Owner() == Some(b.turn)
    requires Resolve(b, placement, fuel).Some?
    ensures OnlyMoverWrote(b.grid, Resolve(b, placement, fuel).value.grid, b.turn)
  {
    var s := At(b.grid, placement).Increment();
    var g := Put(b.grid, placement, s);
    var pending := if s.Value() >= 4 then [placement] else [];
    DrainOnlyMoverWrites(g, b.turn, pending, [], fuel);
    assert OnlyMoverWrote(b.grid, g, b.turn);
    OnlyMoverWroteTransitive(b.grid, g, Resolve(b, placement, fuel).value.grid, b.turn);
  }

  /** When the placement stays below 4, nothing pops: only its value grows by one. */
  lemma ResolveWithoutPop(b: Board, placement: Coordinates, fuel: nat)
    requires At(b.grid, placement).Owner() == Some(b.turn)
    ensures At(b.grid, placement).Value() + 1 < 4 ==>
      && Resolve(b, placement, fuel).Some?
      && var g := Resolve(b, placement, fuel).value.grid;
         forall c: Coordinates {:trigger At(g, c)} :: At(g, c) ==
           if c == placement then Occupied(b.turn, At(b.grid, c).Value() + 1) else At(b.grid, c)
  {
  }

  /** A move that leaves the placement below 4 completes and only grows the placement by one. */
  lemma MoveWithoutPop(b: Board, placement: Coordinates, fuel: nat)
    requires placement in ValidMoves(b)
    ensures At(b.grid, placement).Value() + 1 < 4 ==>
      && MakeMove(b, placement, fuel).Some?
      && var g := MakeMove(b, placement, fuel).value.grid;
         forall c: Coordinates {:trigger At(g, c)} :: At(g, c) ==
           if c == placement then Occupied(b.turn, At(b.grid, c).Value() + 1) else At(b.grid, c)
  {
    assert At(b.grid, placement).Owner() == Some(b.turn);
    ResolveWithoutPop(b, placement, fuel);
    if At(b.grid, placement).Value() + 1 < 4 {
      assert MakeMove(b, placement, fuel).value.grid == Resolve(b, placement, fuel).value.grid;
    }
  }

  /** The pop of a lone pending square `t`, with the stack it leaves behind. */
  lemma PopAlone(g: Grid, mover: Player, t: Coordinates)
    ensures var r := PopStep(g, mover, [t]);
      && At(r.0, t) == Empty
      && (forall n {:trigger At(r.0, n)} :: n in Neighbors(t) ==> At(r.0, n) == Occupied(mover, At(g, n).Value() + 1))
      && (forall c: Coordinates {:trigger At(r.0, c)} :: c != t && c !in Neighbors(t) ==> At(r.0, c) == At(g, c))
      && (forall c: Coordinates :: c in r.1 <==> c in Neighbors(t) && At(g, c).Value() + 1 >= 4)
      && Distinct(r.1)
      && r.1 == Reaching(g, Neighbors(t))
  {
    var r := PopStep(g, mover, [t]);
    PopStepOrder(g, mover, [t]);
    assert Top([t]) == t;
    assert r.1[|[t]| - 1..] == r.1;
  }

  /** A single pending square whose neighbours all stay below 4 ends the drain after one pop. */
  lemma DrainSinglePop(g: Grid, mover: Player, t: Coordinates, fuel: nat)
    requires fuel > 0
    requires forall n :: n in Neighbors(t) ==> At(g, n).Value() + 1 < 4
    ensures Drain(g, mover, [t], [], fuel) == Some(Chain(PopStep(g, mover, [t]).0, [t]))
  {
    var pending := [t];
    assert Top(pending) == t;
    var step := PopStep(g, mover, pending);
    assert step.1 == [] by {
      PopAlone(g, mover, t);
      EmptyWithoutMembers(step.1);
    }
    assert Drain(step.0, mover, step.1, [], fuel - 1) == Some(Chain(step.0, []));
    DrainByPops(g, mover, pending, fuel);
    assert [t] + [] == [t];
  }

  /** The chain reaction of a placement at 3 whose neighbours all hold less than 3 is one pop. */
  lemma ResolveSinglePop(b: Board, placement: Coordinates, fuel: nat)
    requires fuel > 0
    requires At(b.grid, placement) == Occupied(b.turn, 3)
    requires forall n :: n in Neighbors(placement) ==> At(b.grid, n).Value() < 3
    ensures Resolve(b, placement, fuel).Some?
    ensures var g := Resolve(b, placement, fuel).value.grid;
      forall c: Coordinates {:trigger At(g, c)} :: At(g, c) ==
        if c == placement then Empty
        else if c in Neighbors(placement) then Occupied(b.turn, At(b.grid, c).Value() + 1)
        else At(b.grid, c)
  {
    var t := placement;
    var g := Put(b.grid, t, Occupied(b.turn, 4));
    assert forall n :: n in Neighbors(t) ==> At(g, n) == At(b.grid, n) by {
      NeighborsDistinct(t);
    }
    var h := PopStep(g, b.turn, [t]).0;
    assert Resolve(b, t, fuel) == Some(Chain(h, [t])) by {
      DrainSinglePop(g, b.turn, t, fuel);
    }
    assert Top([t]) == t;
    forall c: Coordinates
      ensures At(h, c) ==
        if c == t then Empty
        else if c in Neighbors(t) then Occupied(b.turn, At(b.grid, c).Value() + 1)
        else At(b.grid, c)
    {
      if c != t {
        assert At(g, c) == At(b.grid, c);
      }
    }
  }

  /**
   * A placement at 3 whose neighbours all hold less than 3 pops exactly
   * once: it empties, each neighbour is captured with one more, and nothing
   * else changes.
   */
  lemma MoveSinglePop(b: Board, placement: Coordinates, fuel: nat)
    requires At(b.grid, placement) == Occupied(b.turn, 3)
    requires forall n :: n in Neighbors(placement) ==> At(b.grid, n).Value() < 3
    requires fuel > 0
    ensures placement in ValidMoves(b)
    ensures MakeMove(b, placement, fuel).Some?
    ensures MakeMove(b, placement, fuel).value.turn == Opponent(b.turn)
    ensures var g := MakeMove(b, placement, fuel).value.grid;
      forall c: Coordinates {:trigger At(g, c)} :: At(g, c) ==
        if c == placement then Empty
        else if c in Neighbors(placement) then Occupied(b.turn, At(b.grid, c).Value() + 1)
        else At(b.grid, c)
  {
    assert placement in ValidMoves(b);
    assert Resolve(b, placement, fuel).Some? by {
      ResolveSinglePop(b, placement, fuel);
    }
    var g := MakeMove(b, placement, fuel).value.grid;
    assert g == Resolve(b, placement, fuel).value.grid;
    ResolveSinglePop(b, placement, fuel);
  }

  /** After a completed move, any square of the opponent was already the opponent's, unchanged. */
  lemma MoveKeepsOpponentSquares(b: Board, placement: Coordinates, fuel: nat)
    requires placement in ValidMoves(b)
    requires MakeMove(b, placement, fuel).Some?
    ensures var after := MakeMove(b, placement, fuel).value;
      forall c: Coordinates {:trigger At(after.grid, c)} ::
        At(after.grid, c).Owner() == Some(after.turn) ==> At(after.grid, c) == At(b.grid, c)
  {
    var s := At(b.grid, placement).Increment();
    var g := Put(b.grid, placement, s);
    var pending := if s.Value() >= 4 then [placement] else [];
    var ch := Drain(g, b.turn, pending, [], fuel).value;
    DrainOnlyMoverWrites(g, b.turn, pending, [], fuel);
    forall c: Coordinates | At(ch.grid, c).Owner() == Some(Opponent(b.turn))
      ensures At(ch.grid, c) == At(b.grid, c)
    {
      assert At(ch.grid, c) == At(g, c);
    }
  }

  /**
   * Every occupied square holds at least one. Together with `Settled` this
   * is the range 1 to 3 an occupied square holds between moves.
   */
  ghost predicate Positive(g: Grid) {
    forall c: Coordinates {:trigger At(g, c)} :: At(g, c).Occupied? ==> At(g, c).Value() >= 1
  }

  /** The starting position holds two stacks of 3 and nothing else: positive and settled. */
  lemma SetupInRange(red: Coordinates, blue: Coordinates)
    ensures Positive(Setup(red, blue).grid) && Settled(Setup(red, blue).grid)
  {
    var g := Setup(red, blue).grid;
    forall c: Coordinates
      ensures (At(g, c).Occupied? ==> At(g, c).Value() >= 1) && At(g, c).Value() < 4
    {
      if c != red && c != blue {
        assert At(g, c) == Empty;
      }
    }
  }

  /** A drain empties the cells it pops and gives one more to those it captures: no occupied square drops to 0. */
  lemma {:induction false} DrainKeepsPositive(g: Grid, mover: Player, pending: seq<Coordinates>, todo: seq<Coordinates>, fuel: nat)
    requires Drain(g, mover, pending, todo, fuel).Some?
    ensures Positive(g) ==> Positive(Drain(g, mover, pending, todo, fuel).value.grid)
    decreases fuel, |todo|
  {
    if Positive(g) {
      if |todo| > 0 {
        var n := todo[0];
        var h := Capture(g, mover, n);
        assert Positive(h) by {
          forall c: Coordinates | At(h, c).Occupied?
            ensures At(h, c).Value() >= 1
          {
            if c != n {
              assert At(h, c) == At(g, c);
            }
          }
        }
        DrainKeepsPositive(h, mover, if At(h, n).Value() >= 4 then pending + [n] else pending, todo[1..], fuel);
      } else if |pending| > 0 {
        var t := Top(pending);
        var h := Put(g, t, At(g, t).Reset());
        assert Positive(h) by {
          forall c: Coordinates | At(h, c).Occupied?
            ensures At(h, c).Value() >= 1
          {
            assert c != t && At(h, c) == At(g, c);
          }
        }
        DrainKeepsPositive(h, mover, pending[..|pending| - 1], Neighbors(t), fuel - 1);
      }
    }
  }

  /**
   * A completed move keeps every occupied square at 1 or more, so together
   * with `MakeMove`'s settledness it keeps every occupied square between 1
   * and 3.
   */
  lemma MoveKeepsPositive(b: Board, placement: Coordinates, fuel: nat)
    requires placement in ValidMoves(b)
    requires MakeMove(b, placement, fuel).Some?
    ensures Positive(b.grid) ==> Positive(MakeMove(b, placement, fuel).value.grid)
    ensures Positive(b.grid) && Settled(b.grid) ==>
      var g := MakeMove(b, placement, fuel).value.grid;
      forall c: Coordinates {:trigger At(g, c)} :: At(g, c).Occupied? ==> 1 <= At(g, c).Value() <= 3
  {
    var s := At(b.grid, placement).Increment();
    var g := Put(b.grid, placement, s);
    var pending := if s.Value() >= 4 then [placement] else [];
    if Positive(b.grid) {
      assert Positive(g) by {
        forall c: Coordinates | At(g, c).Occupied?
          ensures At(g, c).Value() >= 1
        {
          if c != placement {
            assert At(g, c) == At(b.grid, c);
          }
        }
      }
      DrainKeepsPositive(g, b.turn, pending, [], fuel);
    }
  }
}

=== FILE: coordinates.dfy ===
/** Bounds-checked positions on the fixed-size board and their orthogonal neighbours. */
module Coords {

  import opened Optional
  import opened Sequences

  /** Number of rows of the board. */
  const ROWS: nat := 5
  /** Number of columns of the board. */
  const COLUMNS: nat := 5

  /** A (row, column) pair, not yet checked against the board size. */
  datatype Position = Position(row: nat, column: nat)

  predicate InBounds(p: Position) {
    p.row < ROWS && p.column < COLUMNS
  }

  /** A position that lies on the board. */
  type Coordinates = p: Position | InBounds(p) witness Position(0, 0)

  /** Checked construction: `None` when the row or the column is off the board. */
  function New(row: nat, column: nat): (r: Option<Coordinates>)
    ensures r.Some? <==> row < ROWS && column < COLUMNS
    ensures r.Some? ==> r.value.row == row && r.value.column == column
  {
    if row < ROWS && column < COLUMNS then Some(Position(row, column)) else None
  }

  /** The accessors give back exactly what was passed to the constructor. */
  lemma NewRoundTrip(c: Coordinates)
    ensures New(c.row, c.column) == Some(c)
  {
  }

  function Distance(a: nat, b: nat): nat {
    if a < b then b - a else a - b
  }

  /** Manhattan distance exactly 1: the two positions share an edge. */
  predicate Adjacent(a: Position, b: Position) {
    Distance(a.row, b.row) + Distance(a.column, b.column) == 1
  }

  /** The enumeration rank of the step from `c` to an adjacent `n`: north 0, south 1, west 2, east 3. */
  function DirectionRank(c: Position, n: Position): nat {
    if n.row < c.row then 0
    else if n.row > c.row then 1
    else if n.column < c.column then 2
    else 3
  }

  /**
   * The in-bounds orthogonal neighbours of `c`, north, south, west, east,
   * each present only when that step stays on the board.
   */
  function Neighbors(c: Coordinates): seq<Coordinates> {
    (if c.row > 0 then [Position(c.row - 1, c.column)] else [])
    + (if c.row < ROWS - 1 then [Position(c.row + 1, c.column)] else [])
    + (if c.column > 0 then [Position(c.row, c.column - 1)] else [])
    + (if c.column < COLUMNS - 1 then [Position(c.row, c.column + 1)] else [])
  }

  /**
   * The neighbours are exactly the adjacent cells of the board, listed in
   * the order north, south, west, east.
   */
  lemma NeighborsAreAdjacent(c: Coordinates)
    ensures forall n: Coordinates :: n in Neighbors(c) <==> Adjacent(c, n)
    ensures forall i :: 0 <= i < |Neighbors(c)| ==> Adjacent(c, Neighbors(c)[i])
    ensures forall i, j :: 0 <= i < j < |Neighbors(c)| ==>
      DirectionRank(c, Neighbors(c)[i]) < DirectionRank(c, Neighbors(c)[j])
  {
  }

  /** A position is never its own neighbour, and the neighbour list has no repetitions. */
  lemma NeighborsDistinct(c: Coordinates)
    ensures c !in Neighbors(c)
    ensures Distinct(Neighbors(c))
  {
    NeighborsAreAdjacent(c);
    var r := Neighbors(c);
    forall i, j | 0 <= i < j < |r|
      ensures r[i] != r[j]
    {
      assert DirectionRank(c, r[i]) < DirectionRank(c, r[j]);
    }
  }

  predicate OnRowEdge(c: Coordinates) {
    c.row == 0 || c.row == ROWS - 1
  }

  predicate OnColumnEdge(c: Coordinates) {
    c.column == 0 || c.column == COLUMNS - 1
  }

  /** A corner has two neighbours, any other border cell three, an interior cell four. */
  lemma NeighborCount(c: Coordinates)
    ensures OnRowEdge(c) && OnColumnEdge(c) ==> |Neighbors(c)| == 2
    ensures OnRowEdge(c) != OnColumnEdge(c) ==> |Neighbors(c)| == 3
    ensures !OnRowEdge(c) && !OnColumnEdge(c) ==> |Neighbors(c)| == 4
  {
  }

  /** Being a neighbour is symmetric. */
  lemma NeighborSymmetry(a: Coordinates, b: Coordinates)
    ensures b in Neighbors(a) <==> a in Neighbors(b)
  {
    NeighborsAreAdjacent(a);
    NeighborsAreAdjacent(b);
  }
}

=== FILE: engine.dfy ===
/**
 * The search engine: a static evaluation from Red's point of view, a
 * depth-limited minimax with alpha-beta pruning that threads a transposition
 * table, and the iterative-deepening root loop, run for a given number of
 * passes instead of until a deadline.
 *
 * Every move the engine makes goes through `MakeMove`, whose chain reaction is
 * bounded by `fuel`; when a reaction runs out of fuel the search gives `None`.
 */
module Engine {

  import opened Optional
  import opened Players
  import opened Coords
  import opened Squares
  import opened Boards

  const I32_MAX: int := 0x7fff_ffff
  const I32_MIN: int := -0x8000_0000

  /** A score as the engine stores it: a signed 32-bit integer. */
  type Score = x: int | I32_MIN <= x <= I32_MAX

  function Max(x: Score, y: Score): Score { if x >= y then x else y }

  function Min(x: Score, y: Score): Score { if x <= y then x else y }

  // ---------------------------------------------------------------- evaluation

  /**
   * The static score of a board: `I32_MAX` when only Red owns squares,
   * `I32_MIN` when only Blue does, and otherwise Red's squares minus Blue's.
   */
  function Evaluate(b: Board): (s: Score)
    ensures s == I32_MAX <==> Owns(b.grid, Red) && !Owns(b.grid, Blue)
    ensures s == I32_MIN <==> Owns(b.grid, Blue) && !Owns(b.grid, Red)
    ensures s == I32_MAX || s == I32_MIN <==> IsGameOver(b)
    ensures !IsGameOver(b) ==> s == Count(b.grid, Red) - Count(b.grid, Blue)
    ensures !IsGameOver(b) ==> -(CELLS as int) <= s <= CELLS
  {
    CountsFit(b.grid);
    var red := Count(b.grid, Red);
    var blue := Count(b.grid, Blue);
    if blue == 0 && red > 0 then I32_MAX
    else if red == 0 && blue > 0 then I32_MIN
    else red - blue
  }

  /**
   * The evaluation as the engine computes it: one scan over the rows and
   * columns that adds one per Red square and takes one per Blue square, then
   * the two sentinel checks.
   */
  method Scan(b: Board) returns (score: Score)
    ensures score == Evaluate(b)
  {
    var s: int := 0;
    var red: nat := 0;
    var blue: nat := 0;
    CountsFit(b.grid);
    for row := 0 to ROWS
      invariant red + CountFrom(b.grid, Red, row * COLUMNS) == Count(b.grid, Red)
      invariant blue + CountFrom(b.grid, Blue, row * COLUMNS) == Count(b.grid, Blue)
      invariant s == red - blue
    {
      s, red, blue := ScanRow(b.grid, row, s, red, blue);
    }
    if blue == 0 && red > 0 {
      s := I32_MAX;
    }
    if red == 0 && blue > 0 {
      s := I32_MIN;
    }
    score := s;
  }

  /** The inner loop of `Scan`: one row's squares added to the running tallies. */
  method ScanRow(g: Grid, row: nat, s0: int, red0: nat, blue0: nat) returns (s: int, red: nat, blue: nat)
    requires row < ROWS && s0 == red0 - blue0
    ensures red + CountFrom(g, Red, (row + 1) * COLUMNS) == red0 + CountFrom(g, Red, row * COLUMNS)
    ensures blue + CountFrom(g, Blue, (row + 1) * COLUMNS) == blue0 + CountFrom(g, Blue, row * COLUMNS)
    ensures s == red - blue
  {
    s, red, blue := s0, red0, blue0;
    ghost var k: nat := row * COLUMNS;
    for column := 0 to COLUMNS
      invariant k == row * COLUMNS + column
      invariant red + CountFrom(g, Red, k) == red0 + CountFrom(g, Red, row * COLUMNS)
      invariant blue + CountFrom(g, Blue, k) == blue0 + CountFrom(g, Blue, row * COLUMNS)
      invariant s == red - blue
    {
      ScanStep(g, row, column, k);
      match g[row][column].Owner() {
        case Some(Red) =>
          s := s + 1;
          red := red + 1;
        case Some(Blue) =>
          s := s - 1;
          blue := blue + 1;
        case None =>
      }
      k := k + 1;
    }
    assert k == (row + 1) * COLUMNS;
  }

  /** The count from the scan position `(row, column)`, row-major index `k`, splits off that one square. */
  lemma ScanStep(g: Grid, row: nat, column: nat, k: nat)
    requires row < ROWS && column < COLUMNS && k == row * COLUMNS + column
    ensures CountFrom(g, Red, k) == (if g[row][column].Owner() == Some(Red) then 1 else 0) + CountFrom(g, Red, k + 1)
    ensures CountFrom(g, Blue, k) == (if g[row][column].Owner() == Some(Blue) then 1 else 0) + CountFrom(g, Blue, k + 1)
  {
    var c: Coordinates := Position(row, column);
    assert Index(c) == k;
    CellOfIndex(k);
    assert CellOf(k) == c;
  }

  // ---------------------------------------------------------------- alpha-beta

  /** A board mapped to the score last stored for it and the depth it was searched to. */
  type Table = map<Board, (Score, nat)>

  /** A search result: the score and the table as the search leaves it. */
  datatype Searched = Searched(score: Score, table: Table)

  /** A board the search scores statically: no depth left, or the game is over. */
  predicate Terminal(b: Board, depth: nat) {
    depth == 0 || IsGameOver(b)
  }

  /** The table already holds a score for `b` searched at least `depth` deep. */
  predicate Cached(table: Table, b: Board, depth: nat) {
    b in table && table[b].1 >= depth
  }

  /**
   * The minimax score of `b` searched `depth` plies deep inside the window
   * `alpha`..`beta`: a terminal board is evaluated, a cached board answers
   * from the table, and any other board explores its moves in order and
   * stores its score with the depth in the table.
   */
  function AlphaBeta(b: Board, depth: nat, alpha: Score, beta: Score, maximizing: bool, table: Table, fuel: nat): (r: Option<Searched>)
    ensures Terminal(b, depth) ==> r == Some(Searched(Evaluate(b), table))
    ensures !Terminal(b, depth) && Cached(table, b, depth) ==> r == Some(Searched(table[b].0, table))
    ensures r.Some? ==> table.Keys <= r.value.table.Keys
    ensures r.Some? && !Terminal(b, depth) ==>
      Cached(r.value.table, b, depth) && r.value.table[b].0 == r.value.score
    ensures r.Some? && !Terminal(b, depth) && !Cached(table, b, depth) ==>
      r.value.table[b] == (r.value.score, depth) && (maximizing ==> r.value.score >= -I32_MAX)
    ensures r.Some? && !Terminal(b, depth) && !Cached(table, b, depth) && |ValidMoves(b)| > 0 ==>
      MakeMove(b, ValidMoves(b)[0], fuel).Some? &&
      AlphaBeta(MakeMove(b, ValidMoves(b)[0], fuel).value, depth - 1, alpha, beta, !maximizing, table, fuel).Some? &&
      var first := AlphaBeta(MakeMove(b, ValidMoves(b)[0], fuel).value, depth - 1, alpha, beta, !maximizing, table, fuel).value.score;
      if maximizing then r.value.score >= first else r.value.score <= first
    ensures r.Some? && !Terminal(b, depth) && !Cached(table, b, depth) && |ValidMoves(b)| > 0 ==>
      var first := AlphaBeta(MakeMove(b, ValidMoves(b)[0], fuel).value, depth - 1, alpha, beta, !maximizing, table, fuel).value;
      && (maximizing && Max(-I32_MAX, first.score) >= beta ==>
            r.value == Searched(Max(-I32_MAX, first.score), first.table[b := (Max(-I32_MAX, first.score), depth)]))
      && (!maximizing && Min(I32_MAX, first.score) <= alpha ==>
            r.value == Searched(Min(I32_MAX, first.score), first.table[b := (Min(I32_MAX, first.score), depth)]))
    decreases depth, 1, 0
  {
    if Terminal(b, depth) then Some(Searched(Evaluate(b), table))
    else if Cached(table, b, depth) then Some(Searched(table[b].0, table))
    else
      var explored :=
        if maximizing then MaxLoop(b, 0, depth, alpha, beta, -I32_MAX, table, fuel)
        else MinLoop(b, 0, depth, alpha, beta, I32_MAX, table, fuel);
      match explored
      case None => None
      case Some(s) => Some(Searched(s.score, s.table[b := (s.score, depth)]))
  }

  /**
   * A maximizing node's loop over its moves from the `i`-th on: the running
   * maximum `value` takes each child's score, the loop stops as soon as it
   * reaches `beta`, and otherwise raises `alpha` to it.
   */
  function MaxLoop(b: Board, i: nat, depth: nat, alpha: Score, beta: Score, value: Score, table: Table, fuel: nat): (r: Option<Searched>)
    requires depth > 0 && i <= |ValidMoves(b)|
    ensures r.Some? ==> r.value.score >= value
    ensures r.Some? ==> table.Keys <= r.value.table.Keys
    ensures r.Some? && i < |ValidMoves(b)| ==>
      MakeMove(b, ValidMoves(b)[i], fuel).Some? &&
      AlphaBeta(MakeMove(b, ValidMoves(b)[i], fuel).value, depth - 1, alpha, beta, false, table, fuel).Some? &&
      r.value.score >= AlphaBeta(MakeMove(b, ValidMoves(b)[i], fuel).value, depth - 1, alpha, beta, false, table, fuel).value.score
    ensures r.Some? && i < |ValidMoves(b)| ==>
      var s := AlphaBeta(MakeMove(b, ValidMoves(b)[i], fuel).value, depth - 1, alpha, beta, false, table, fuel).value;
      Max(value, s.score) >= beta ==> r.value == Searched(Max(value, s.score), s.table)
    decreases depth, 0, |ValidMoves(b)| - i
  {
    if i == |ValidMoves(b)| then Some(Searched(value, table))
    else
      match MakeMove(b, ValidMoves(b)[i], fuel)
      case None => None
      case Some(child) =>
        match AlphaBeta(child, depth - 1, alpha, beta, false, table, fuel)
        case None => None
        case Some(s) =>
          var v := Max(value, s.score);
          if v >= beta then Some(Searched(v, s.table))
          else MaxLoop(b, i + 1, depth, Max(alpha, v), beta, v, s.table, fuel)
  }

  /**
   * A minimizing node's loop, the mirror of `MaxLoop`: the running minimum
   * stops the loop as soon as it falls to `alpha` and otherwise lowers `beta`.
   */
  function MinLoop(b: Board, i: nat, depth: nat, alpha: Score, beta: Score, value: Score, table: Table, fuel: nat): (r: Option<Searched>)
    requires depth > 0 && i <= |ValidMoves(b)|
    ensures r.Some? ==> r.value.score <= value
    ensures r.Some? ==> table.Keys <= r.value.table.Keys
    ensures r.Some? && i < |ValidMoves(b)| ==>
      MakeMove(b, ValidMoves(b)[i], fuel).Some? &&
      AlphaBeta(MakeMove(b, ValidMoves(b)[i], fuel).value, depth - 1, alpha, beta, true, table, fuel).Some? &&
      r.value.score <= AlphaBeta(MakeMove(b, ValidMoves(b)[i], fuel).value, depth - 1, alpha, beta, true, table, fuel).value.score
    ensures r.Some? && i < |ValidMoves(b)| ==>
      var s := AlphaBeta(MakeMove(b, ValidMoves(b)[i], fuel).value, depth - 1, alpha, beta, true, table, fuel).value;
      Min(value, s.score) <= alpha ==> r.value == Searched(Min(value, s.score), s.table)
    decreases depth, 0, |ValidMoves(b)| - i
  {
    if i == |ValidMoves(b)| then Some(Searched(value, table))
    else
      match MakeMove(b, ValidMoves(b)[i], fuel)
      case None => None
      case Some(child) =>
        match AlphaBeta(child, depth - 1, alpha, beta, true, table, fuel)
        case None => None
        case Some(s) =>
          var v := Min(value, s.score);
          if v <= alpha then Some(Searched(v, s.table))
          else MinLoop(b, i + 1, depth, alpha, Min(beta, v), v, s.table, fuel)
  }

  /**
   * The loop of a maximizing node with the `beta` cut-off taken out: every
   * move from the `i`-th on is searched, each with the window as it stands.
   */
  function MaxAll(b: Board, i: nat, depth: nat, alpha: Score, beta: Score, value: Score, table: Table, fuel: nat): (r: Option<Searched>)
    requires depth > 0 && i <= |ValidMoves(b)|
    ensures r.Some? ==> r.value.score >= value
    decreases |ValidMoves(b)| - i
  {
    if i == |ValidMoves(b)| then Some(Searched(value, table))
    else
      match MakeMove(b, ValidMoves(b)[i], fuel)
      case None => None
      case Some(child) =>
        match AlphaBeta(child, depth - 1, alpha, beta, false, table, fuel)
        case None => None
        case Some(s) =>
          var v := Max(value, s.score);
          MaxAll(b, i + 1, depth, Max(alpha, v), beta, v, s.table, fuel)
  }

  /** The mirror of `MaxAll` for a minimizing node, without the `alpha` cut-off. */
  function MinAll(b: Board, i: nat, depth: nat, alpha: Score, beta: Score, value: Score, table: Table, fuel: nat): (r: Option<Searched>)
    requires depth > 0 && i <= |ValidMoves(b)|
    ensures r.Some? ==> r.value.score <= value
    decreases |ValidMoves(b)| - i
  {
    if i == |ValidMoves(b)| then Some(Searched(value, table))
    else
      match MakeMove(b, ValidMoves(b)[i], fuel)
      case None => None
      case Some(child) =>
        match AlphaBeta(child, depth - 1, alpha, beta, true, table, fuel)
        case None => None
        case Some(s) =>
          var v := Min(value, s.score);
          MinAll(b, i + 1, depth, alpha, Min(beta, v), v, s.table, fuel)
  }

  /**
   * A maximizing loop that ends below `beta` never cut off: it searched
   * every remaining move, exactly as the loop without the cut-off does.
   */
  lemma {:induction false} MaxLoopUncut(b: Board, i: nat, depth: nat, alpha: Score, beta: Score, value: Score, table: Table, fuel: nat)
    requires depth > 0 && i <= |ValidMoves(b)|
    ensures MaxLoop(b, i, depth, alpha, beta, value, table, fuel).Some? &&
            MaxLoop(b, i, depth, alpha, beta, value, table, fuel).value.score < beta ==>
            MaxLoop(b, i, depth, alpha, beta, value, table, fuel) == MaxAll(b, i, depth, alpha, beta, value, table, fuel)
    decreases |ValidMoves(b)| - i
  {
    if i < |ValidMoves(b)| {
      var mm := MakeMove(b, ValidMoves(b)[i], fuel);
      if mm.Some? {
        var ab := AlphaBeta(mm.value, depth - 1, alpha, beta, false, table, fuel);
        if ab.Some? {
          var v := Max(value, ab.value.score);
          if v < beta {
            assert MaxLoop(b, i, depth, alpha, beta, value, table, fuel) == MaxLoop(b, i + 1, depth, Max(alpha, v), beta, v, ab.value.table, fuel);
            assert MaxAll(b, i, depth, alpha, beta, value, table, fuel) == MaxAll(b, i + 1, depth, Max(alpha, v), beta, v, ab.value.table, fuel);
            MaxLoopUncut(b, i + 1, depth, Max(alpha, v), beta, v, ab.value.table, fuel);
          } else {
            assert MaxLoop(b, i, depth, alpha, beta, value, table, fuel) == Some(Searched(v, ab.value.table));
          }
        }
      }
    }
  }

  /** A minimizing loop that ends above `alpha` never cut off. */
  lemma {:induction false} MinLoopUncut(b: Board, i: nat, depth: nat, alpha: Score, beta: Score, value: Score, table: Table, fuel: nat)
    requires depth > 0 && i <= |ValidMoves(b)|
    ensures MinLoop(b, i, depth, alpha, beta, value, table, fuel).Some? &&
            MinLoop(b, i, depth, alpha, beta, value, table, fuel).value.score > alpha ==>
            MinLoop(b, i, depth, alpha, beta, value, table, fuel) == MinAll(b, i, depth, alpha, beta, value, table, fuel)
    decreases |ValidMoves(b)| - i
  {
    if i < |ValidMoves(b)| {
      var mm := MakeMove(b, ValidMoves(b)[i], fuel);
      if mm.Some? {
        var ab := AlphaBeta(mm.value, depth - 1, alpha, beta, true, table, fuel);
        if ab.Some? {
          var v := Min(value, ab.value.score);
          if v > alpha {
            assert MinLoop(b, i, depth, alpha, beta, value, table, fuel) == MinLoop(b, i + 1, depth, alpha, Min(beta, v), v, ab.value.table, fuel);
            assert MinAll(b, i, depth, alpha, beta, value, table, fuel) == MinAll(b, i + 1, depth, alpha, Min(beta, v), v, ab.value.table, fuel);
            MinLoopUncut(b, i + 1, depth, alpha, Min(beta, v), v, ab.value.table, fuel);
          } else {
            assert MinLoop(b, i, depth, alpha, beta, value, table, fuel) == Some(Searched(v, ab.value.table));
          }
        }
      }
    }
  }

  /**
   * A searched node whose score stays inside its window searched every
   * move: a maximizing node below `beta`, a minimizing one above `alpha`,
   * scores as the loop without the cut-off does.
   */
  lemma AlphaBetaUncut(b: Board, depth: nat, alpha: Score, beta: Score, maximizing: bool, table: Table, fuel: nat)
    requires !Terminal(b, depth) && !Cached(table, b, depth)
    requires AlphaBeta(b, depth, alpha, beta, maximizing, table, fuel).Some?
    ensures maximizing && AlphaBeta(b, depth, alpha, beta, maximizing, table, fuel).value.score < beta ==>
      MaxAll(b, 0, depth, alpha, beta, -I32_MAX, table, fuel).Some? &&
      AlphaBeta(b, depth, alpha, beta, maximizing, table, fuel).value.score == MaxAll(b, 0, depth, alpha, beta, -I32_MAX, table, fuel).value.score
    ensures !maximizing && AlphaBeta(b, depth, alpha, beta, maximizing, table, fuel).value.score > alpha ==>
      MinAll(b, 0, depth, alpha, beta, I32_MAX, table, fuel).Some? &&
      AlphaBeta(b, depth, alpha, beta, maximizing, table, fuel).value.score == MinAll(b, 0, depth, alpha, beta, I32_MAX, table, fuel).value.score
  {
    if maximizing {
      MaxLoopUncut(b, 0, depth, alpha, beta, -I32_MAX, table, fuel);
    } else {
      MinLoopUncut(b, 0, depth, alpha, beta, I32_MAX, table, fuel);
    }
  }

  /**
   * Searching a board again with the table a search of it left behind gives
   * the same score and leaves the table alone, whatever the window or side.
   */
  lemma AlphaBetaAgain(b: Board, depth: nat, alpha: Score, beta: Score, maximizing: bool, table: Table, fuel: nat,
                       alpha': Score, beta': Score, maximizing': bool, fuel': nat)
    requires AlphaBeta(b, depth, alpha, beta, maximizing, table, fuel).Some?
    ensures var r := AlphaBeta(b, depth, alpha, beta, maximizing, table, fuel).value;
      AlphaBeta(b, depth, alpha', beta', maximizing', r.table, fuel') == Some(r)
  {
  }

  /**
   * The one-ply minimax reference: the best static evaluation among the
   * children of `b` from the `i`-th move on, starting from `value`, with no
   * pruning and no table.
   */
  function OnePly(b: Board, i: nat, maximizing: bool, value: Score, fuel: nat): Option<Score>
    requires i <= |ValidMoves(b)|
    decreases |ValidMoves(b)| - i
  {
    if i == |ValidMoves(b)| then Some(value)
    else
      match MakeMove(b, ValidMoves(b)[i], fuel)
      case None => None
      case Some(child) =>
        var e := Evaluate(child);
        OnePly(b, i + 1, maximizing, if maximizing then Max(value, e) else Min(value, e), fuel)
  }

  /**
   * At depth one the maximizing loop is a fail-soft version of the one-ply
   * maximum: below `beta` it is that maximum, at or above `beta` it is a
   * lower bound of it, and the table is not touched.
   */
  lemma {:induction false} MaxLoopOnePly(b: Board, i: nat, alpha: Score, beta: Score, value: Score, table: Table, fuel: nat)
    requires i <= |ValidMoves(b)| && OnePly(b, i, true, value, fuel).Some?
    ensures var r := MaxLoop(b, i, 1, alpha, beta, value, table, fuel);
      var m := OnePly(b, i, true, value, fuel).value;
      && r.Some? && r.value.table == table
      && (r.value.score < beta ==> r.value.score == m)
      && (r.value.score >= beta ==> m >= r.value.score)
    decreases |ValidMoves(b)| - i
  {
    if i < |ValidMoves(b)| {
      var child := MakeMove(b, ValidMoves(b)[i], fuel).value;
      var v := Max(value, Evaluate(child));
      assert OnePly(b, i, true, value, fuel) == OnePly(b, i + 1, true, v, fuel);
      assert AlphaBeta(child, 0, alpha, beta, false, table, fuel) == Some(Searched(Evaluate(child), table));
      if v < beta {
        assert MaxLoop(b, i, 1, alpha, beta, value, table, fuel) == MaxLoop(b, i + 1, 1, Max(alpha, v), beta, v, table, fuel);
        MaxLoopOnePly(b, i + 1, Max(alpha, v), beta, v, table, fuel);
      } else {
        assert MaxLoop(b, i, 1, alpha, beta, value, table, fuel) == Some(Searched(v, table));
        OnePlyAtLeast(b, i + 1, v, fuel);
      }
    }
  }

  /** The mirror of `MaxLoopOnePly` for a minimizing node and its bound `alpha`. */
  lemma {:induction false} MinLoopOnePly(b: Board, i: nat, alpha: Score, beta: Score, value: Score, table: Table, fuel: nat)
    requires i <= |ValidMoves(b)| && OnePly(b, i, false, value, fuel).Some?
    ensures var r := MinLoop(b, i, 1, alpha, beta, value, table, fuel);
      var m := OnePly(b, i, false, value, fuel).value;
      && r.Some? && r.value.table == table
      && (r.value.score > alpha ==> r.value.score == m)
      && (r.value.score <= alpha ==> m <= r.value.score)
    decreases |ValidMoves(b)| - i
  {
    if i < |ValidMoves(b)| {
      var child := MakeMove(b, ValidMoves(b)[i], fuel).value;
      var v := Min(value, Evaluate(child));
      assert OnePly(b, i, false, value, fuel) == OnePly(b, i + 1, false, v, fuel);
      assert AlphaBeta(child, 0, alpha, beta, true, table, fuel) == Some(Searched(Evaluate(child), table));
      if v > alpha {
        assert MinLoop(b, i, 1, alpha, beta, value, table, fuel) == MinLoop(b, i + 1, 1, alpha, Min(beta, v), v, table, fuel);
        MinLoopOnePly(b, i + 1, alpha, Min(beta, v), v, table, fuel);
      } else {
        assert MinLoop(b, i, 1, alpha, beta, value, table, fuel) == Some(Searched(v, table));
        OnePlyAtMost(b, i + 1, v, fuel);
      }
    }
  }

  /** The one-ply maximum is at least its starting value. */
  lemma {:induction false} OnePlyAtLeast(b: Board, i: nat, value: Score, fuel: nat)
    requires i <= |ValidMoves(b)| && OnePly(b, i, true, value, fuel).Some?
    ensures OnePly(b, i, true, value, fuel).value >= value
    decreases |ValidMoves(b)| - i
  {
    if i < |ValidMoves(b)| {
      var child := MakeMove(b, ValidMoves(b)[i], fuel).value;
      OnePlyAtLeast(b, i + 1, Max(value, Evaluate(child)), fuel);
    }
  }

  /** The one-ply minimum is at most its starting value. */
  lemma {:induction false} OnePlyAtMost(b: Board, i: nat, value: Score, fuel: nat)
    requires i <= |ValidMoves(b)| && OnePly(b, i, false, value, fuel).Some?
    ensures OnePly(b, i, false, value, fuel).value <= value
    decreases |ValidMoves(b)| - i
  {
    if i < |ValidMoves(b)| {
      var child := MakeMove(b, ValidMoves(b)[i], fuel).value;
      OnePlyAtMost(b, i + 1, Min(value, Evaluate(child)), fuel);
    }
  }

  /**
   * A one-ply search of a live board missing from the table, Red to
   * maximize, agrees with the one-ply maximum below `beta` and bounds it from
   * below at or above `beta`, then stores its score for the board at depth one.
   */
  lemma AlphaBetaOnePlyMax(b: Board, alpha: Score, beta: Score, table: Table, fuel: nat)
    requires !IsGameOver(b) && !Cached(table, b, 1)
    requires OnePly(b, 0, true, -I32_MAX, fuel).Some?
    ensures var r := AlphaBeta(b, 1, alpha, beta, true, table, fuel);
      var m := OnePly(b, 0, true, -I32_MAX, fuel).value;
      && r.Some? && r.value.table == table[b := (r.value.score, 1)]
      && (r.value.score < beta ==> r.value.score == m)
      && (r.value.score >= beta ==> m >= r.value.score)
  {
    MaxLoopOnePly(b, 0, alpha, beta, -I32_MAX, table, fuel);
  }

  /** The mirror of `AlphaBetaOnePlyMax` for the minimizing side and its bound `alpha`. */
  lemma AlphaBetaOnePlyMin(b: Board, alpha: Score, beta: Score, table: Table, fuel: nat)
    requires !IsGameOver(b) && !Cached(table, b, 1)
    requires OnePly(b, 0, false, I32_MAX, fuel).Some?
    ensures var r := AlphaBeta(b, 1, alpha, beta, false, table, fuel);
      var m := OnePly(b, 0, false, I32_MAX, fuel).value;
      && r.Some? && r.value.table == table[b := (r.value.score, 1)]
      && (r.value.score > alpha ==> r.value.score == m)
      && (r.value.score <= alpha ==> m <= r.value.score)
  {
    MinLoopOnePly(b, 0, alpha, beta, I32_MAX, table, fuel);
  }

  // ---------------------------------------------------------------- root search

  /** The root loop's state: its window, its best score and move so far, and the table. */
  datatype Root = Root(alpha: Score, beta: Score, bestScore: Score, best: Coordinates, table: Table)

  /** `x` is strictly better than `y` for the player to move. */
  predicate Better(turn: Player, x: Score, y: Score) {
    if turn == Red then x > y else x < y
  }

  /**
   * The score a search of the board after the root move `m` returns, for
   * the side that replies; `None` when the move or the search runs out of fuel.
   */
  ghost function ReplyScore(b: Board, m: Coordinates, depth: nat, alpha: Score, beta: Score, table: Table, fuel: nat): Option<Score>
    requires m in ValidMoves(b)
  {
    match MakeMove(b, m, fuel)
    case None => None
    case Some(child) =>
      match AlphaBeta(child, depth, alpha, beta, b.turn != Red, table, fuel)
      case None => None
      case Some(s) => Some(s.score)
  }

  /** `score` is what a search after the root move `m` returned, at some depth, window and table. */
  ghost predicate RootScored(b: Board, m: Coordinates, score: Score, fuel: nat) {
    && m in ValidMoves(b)
    && exists depth: nat, alpha: Score, beta: Score, table: Table :: ReplyScore(b, m, depth, alpha, beta, table, fuel) == Some(score)
  }

  /**
   * One root move: search the board after `m` one ply less deep, for the
   * other side, take its score as the best only on a strict improvement, and
   * move both ends of the window to the best score.
   */
  function RootStep(b: Board, m: Coordinates, depth: nat, st: Root, fuel: nat): (r: Option<Root>)
    requires depth > 0 && m in ValidMoves(b)
    ensures r.Some? ==> r.value.best == st.best || r.value.best == m
    ensures r.Some? ==> r.value.bestScore == st.bestScore || Better(b.turn, r.value.bestScore, st.bestScore)
    ensures r.Some? && r.value.best != st.best ==> Better(b.turn, r.value.bestScore, st.bestScore)
    ensures r.Some? ==> st.alpha <= r.value.alpha && r.value.beta <= st.beta
    ensures r.Some? ==> r.value.beta <= r.value.bestScore <= r.value.alpha
    ensures r.Some? ==> st.table.Keys <= r.value.table.Keys
    ensures r.Some? ==>
      && MakeMove(b, m, fuel).Some?
      && AlphaBeta(MakeMove(b, m, fuel).value, depth - 1, st.alpha, st.beta, b.turn != Red, st.table, fuel).Some?
      && var s := AlphaBeta(MakeMove(b, m, fuel).value, depth - 1, st.alpha, st.beta, b.turn != Red, st.table, fuel).value.score;
         if Better(b.turn, s, st.bestScore) then r.value.bestScore == s && r.value.best == m
         else r.value.bestScore == st.bestScore && r.value.best == st.best
    ensures r.Some? ==>
      r.value.alpha == Max(st.alpha, r.value.bestScore) && r.value.beta == Min(st.beta, r.value.bestScore)
    ensures r.Some? ==>
      (r.value.best == st.best && r.value.bestScore == st.bestScore) || RootScored(b, r.value.best, r.value.bestScore, fuel)
  {
    match MakeMove(b, m, fuel)
    case None => None
    case Some(child) =>
      match AlphaBeta(child, depth - 1, st.alpha, st.beta, b.turn != Red, st.table, fuel)
      case None => None
      case Some(s) =>
        var improved := Better(b.turn, s.score, st.bestScore);
        var bestScore := if improved then s.score else st.bestScore;
        var best := if improved then m else st.best;
        assert improved ==> RootScored(b, m, s.score, fuel) by {
          assert ReplyScore(b, m, depth - 1, st.alpha, st.beta, st.table, fuel) == Some(s.score);
        }
        Some(Root(Max(st.alpha, bestScore), Min(st.beta, bestScore), bestScore, best, s.table))
  }

  /** One iterative-deepening pass: every root move from the `i`-th on, in order, at `depth`. */
  function RootPass(b: Board, i: nat, depth: nat, st: Root, fuel: nat): (r: Option<Root>)
    requires depth > 0 && i <= |ValidMoves(b)|
    ensures r.Some? ==> r.value.best == st.best || r.value.best in ValidMoves(b)[i..]
    ensures r.Some? ==> r.value.bestScore == st.bestScore || Better(b.turn, r.value.bestScore, st.bestScore)
    ensures r.Some? && r.value.bestScore == st.bestScore ==> r.value.best == st.best
    ensures r.Some? ==>
      (r.value.best == st.best && r.value.bestScore == st.bestScore) || RootScored(b, r.value.best, r.value.bestScore, fuel)
    decreases |ValidMoves(b)| - i
  {
    if i == |ValidMoves(b)| then Some(st)
    else
      match RootStep(b, ValidMoves(b)[i], depth, st, fuel)
      case None => None
      case Some(next) => RootPass(b, i + 1, depth, next, fuel)
  }

  /** `passes` passes, one ply deeper each time, starting at `depth`. */
  function Passes(b: Board, passes: nat, depth: nat, st: Root, fuel: nat): (r: Option<Root>)
    requires depth > 0
    ensures r.Some? && st.best in ValidMoves(b) ==> r.value.best in ValidMoves(b)
    ensures r.Some? ==> r.value.bestScore == st.bestScore || Better(b.turn, r.value.bestScore, st.bestScore)
    ensures r.Some? && r.value.bestScore == st.bestScore ==> r.value.best == st.best
    ensures r.Some? ==>
      (r.value.best == st.best && r.value.bestScore == st.bestScore) || RootScored(b, r.value.best, r.value.bestScore, fuel)
    decreases passes
  {
    if passes == 0 then Some(st)
    else
      match RootPass(b, 0, depth, st, fuel)
      case None => None
      case Some(next) => Passes(b, passes - 1, depth + 1, next, fuel)
  }

  /**
   * The engine's choice after `passes` passes: its score and move. It
   * starts from the first legal move with the worst score for the side to
   * move and a window that is fully open.
   */
  function Search(b: Board, passes: nat, fuel: nat): (r: Option<(Score, Coordinates)>)
    requires |ValidMoves(b)| > 0
    ensures r.Some? ==> r.value.1 in ValidMoves(b)
    ensures passes == 0 ==> r == Some((if b.turn == Red then I32_MIN else I32_MAX, ValidMoves(b)[0]))
    ensures r.Some? && r.value.1 != ValidMoves(b)[0] ==>
      if b.turn == Red then r.value.0 > I32_MIN else r.value.0 < I32_MAX
    ensures r.Some? ==>
      r.value == (if b.turn == Red then I32_MIN else I32_MAX, ValidMoves(b)[0]) || RootScored(b, r.value.1, r.value.0, fuel)
  {
    var start := Root(I32_MIN, I32_MAX, if b.turn == Red then I32_MIN else I32_MAX, ValidMoves(b)[0], map[]);
    match Passes(b, passes, 1, start, fuel)
    case None => None
    case Some(st) => Some((st.bestScore, st.best))
  }

  // ---------------------------------------------------------------- the root loop, one ply deep

  /**
   * The choice among `moves`, scored by `scores`, as the root loop makes it:
   * a move replaces the best only when its score is strictly better for
   * `turn`, so the first of equally good moves is kept.
   */
  function Choose(turn: Player, moves: seq<Coordinates>, scores: seq<Score>, bestScore: Score, best: Coordinates): (Score, Coordinates)
    requires |moves| == |scores|
    decreases |moves|
  {
    if |moves| == 0 then (bestScore, best)
    else if Better(turn, scores[0], bestScore) then Choose(turn, moves[1..], scores[1..], scores[0], moves[0])
    else Choose(turn, moves[1..], scores[1..], bestScore, best)
  }

  /** Nothing beats the choice for `turn`: neither the starting best nor any scored move. */
  lemma {:induction false} ChooseBest(turn: Player, moves: seq<Coordinates>, scores: seq<Score>, bestScore: Score, best: Coordinates)
    requires |moves| == |scores|
    ensures var r := Choose(turn, moves, scores, bestScore, best);
      && !Better(turn, bestScore, r.0)
      && forall k :: 0 <= k < |scores| ==> !Better(turn, scores[k], r.0)
    decreases |moves|
  {
    if |moves| > 0 {
      var improved := Better(turn, scores[0], bestScore);
      var s := if improved then scores[0] else bestScore;
      var m := if improved then moves[0] else best;
      ChooseBest(turn, moves[1..], scores[1..], s, m);
      var r := Choose(turn, moves, scores, bestScore, best);
      forall k | 0 < k < |scores|
        ensures !Better(turn, scores[k], r.0)
      {
        assert scores[k] == scores[1..][k - 1];
      }
    }
  }

  /**
   * Unless the choice keeps the starting pair, it is a scored move with its
   * own score, strictly better than the starting score and than the score
   * of every move before it: the first move that reaches the chosen score.
   */
  lemma {:induction false} ChooseFirst(turn: Player, moves: seq<Coordinates>, scores: seq<Score>, bestScore: Score, best: Coordinates)
    requires |moves| == |scores|
    ensures var r := Choose(turn, moves, scores, bestScore, best);
      r != (bestScore, best) ==>
      exists k :: 0 <= k < |moves| && r == (scores[k], moves[k]) && Better(turn, scores[k], bestScore) &&
        forall j :: 0 <= j < k ==> Better(turn, scores[k], scores[j])
    decreases |moves|
  {
    var r := Choose(turn, moves, scores, bestScore, best);
    if |moves| > 0 && r != (bestScore, best) {
      var improved := Better(turn, scores[0], bestScore);
      var s := if improved then scores[0] else bestScore;
      var m := if improved then moves[0] else best;
      if r == (s, m) {
        assert improved && r == (scores[0], moves[0]);
      } else {
        ChooseFirst(turn, moves[1..], scores[1..], s, m);
        ChooseBest(turn, moves[1..], scores[1..], s, m);
        var k :| 0 <= k < |moves| - 1 && r == (scores[1..][k], moves[1..][k]) && Better(turn, scores[1..][k], s) &&
          forall j :: 0 <= j < k ==> Better(turn, scores[1..][k], scores[1..][j]);
        assert r == (scores[k + 1], moves[k + 1]) && Better(turn, scores[k + 1], bestScore);
        forall j | 0 <= j < k + 1
          ensures Better(turn, scores[k + 1], scores[j])
        {
          if j > 0 {
            assert scores[1..][j - 1] == scores[j];
          }
        }
      }
    }
  }

  /**
   * The evaluations of the boards the legal moves from the `i`-th on lead
   * to, in move order; `None` when one of those moves runs out of fuel.
   */
  function Evaluations(b: Board, i: nat, fuel: nat): (r: Option<seq<Score>>)
    requires i <= |ValidMoves(b)|
    ensures r.Some? ==> |r.value| == |ValidMoves(b)| - i
    decreases |ValidMoves(b)| - i
  {
    if i == |ValidMoves(b)| then Some([])
    else
      match MakeMove(b, ValidMoves(b)[i], fuel)
      case None => None
      case Some(child) =>
        match Evaluations(b, i + 1, fuel)
        case None => None
        case Some(rest) => Some([Evaluate(child)] + rest)
  }

  /**
   * A pass at depth one is the choice among the remaining moves scored by
   * their evaluations: each root move's child is searched at depth zero,
   * which evaluates it and leaves the table alone.
   */
  lemma {:induction false} RootPassOnePly(b: Board, i: nat, st: Root, fuel: nat)
    requires i <= |ValidMoves(b)|
    ensures var r := RootPass(b, i, 1, st, fuel);
      var es := Evaluations(b, i, fuel);
      && (r.Some? <==> es.Some?)
      && (r.Some? ==>
            && (r.value.bestScore, r.value.best) == Choose(b.turn, ValidMoves(b)[i..], es.value, st.bestScore, st.best)
            && r.value.table == st.table)
    decreases |ValidMoves(b)| - i
  {
    if i < |ValidMoves(b)| {
      var m := ValidMoves(b)[i];
      if MakeMove(b, m, fuel).Some? {
        var child := MakeMove(b, m, fuel).value;
        assert AlphaBeta(child, 0, st.alpha, st.beta, b.turn != Red, st.table, fuel) == Some(Searched(Evaluate(child), st.table));
        var next := RootStep(b, m, 1, st, fuel).value;
        RootPassOnePly(b, i + 1, next, fuel);
        var es := Evaluations(b, i, fuel);
        if es.Some? {
          var moves := ValidMoves(b)[i..];
          assert moves[0] == m && moves[1..] == ValidMoves(b)[i + 1..];
          assert es.value[0] == Evaluate(child) && es.value[1..] == Evaluations(b, i + 1, fuel).value;
        }
      }
    }
  }

  /**
   * A search of one pass returns the choice among all legal moves scored by
   * their evaluations, from the worst score and the first legal move.
   */
  lemma SearchOnePass(b: Board, fuel: nat)
    requires |ValidMoves(b)| > 0
    ensures var es := Evaluations(b, 0, fuel);
      && (Search(b, 1, fuel).Some? <==> es.Some?)
      && (es.Some? ==>
            Search(b, 1, fuel).value ==
            Choose(b.turn, ValidMoves(b), es.value, if b.turn == Red then I32_MIN else I32_MAX, ValidMoves(b)[0]))
  {
    var start := Root(I32_MIN, I32_MAX, if b.turn == Red then I32_MIN else I32_MAX, ValidMoves(b)[0], map[]);
    RootPassOnePly(b, 0, start, fuel);
    assert ValidMoves(b)[0..] == ValidMoves(b);
  }

  /** A full pass at `depth` after the passes that gave `o`; `None` stays `None`. */
  function PassAfter(b: Board, o: Option<Root>, depth: nat, fuel: nat): Option<Root>
    requires depth > 0
  {
    match o
    case None => None
    case Some(mid) => RootPass(b, 0, depth, mid, fuel)
  }

  /** `n` passes from `depth` after a first pass that gave `o`; `None` stays `None`. */
  function PassesThen(b: Board, o: Option<Root>, n: nat, depth: nat, fuel: nat): Option<Root>
    requires depth > 0
  {
    match o
    case None => None
    case Some(next) => Passes(b, n, depth, next, fuel)
  }

  /** Some passes are a first pass at `depth` followed by the rest one ply deeper. */
  lemma PassesUnfold(b: Board, n: nat, depth: nat, st: Root, fuel: nat)
    requires depth > 0 && n > 0
    ensures Passes(b, n, depth, st, fuel) == PassesThen(b, RootPass(b, 0, depth, st, fuel), n - 1, depth + 1, fuel)
  {
  }

  /**
   * Each pass is one ply deeper than the one before: `next = n + 1` passes
   * from `depth` are `n` passes followed by a full pass at `last = depth + n`.
   */
  lemma {:induction false} PassesLast(b: Board, next: nat, n: nat, depth: nat, last: nat, st: Root, fuel: nat)
    requires depth > 0 && next == n + 1 && last == depth + n
    ensures Passes(b, next, depth, st, fuel) == PassAfter(b, Passes(b, n, depth, st, fuel), last, fuel)
    decreases n, 1
  {
    if n == 0 {
      PassesFirst(b, next, depth, st, fuel);
    } else if RootPass(b, 0, depth, st, fuel).Some? {
      PassesLastStep(b, next, n, depth, last, st, RootPass(b, 0, depth, st, fuel).value, fuel);
    } else {
      PassesUnfold(b, next, depth, st, fuel);
      PassesUnfold(b, n, depth, st, fuel);
    }
  }

  /** One pass is a pass at the starting depth. */
  lemma PassesFirst(b: Board, next: nat, depth: nat, st: Root, fuel: nat)
    requires depth > 0 && next == 1
    ensures Passes(b, next, depth, st, fuel) == PassAfter(b, Passes(b, 0, depth, st, fuel), depth, fuel)
  {
    var first := RootPass(b, 0, depth, st, fuel);
    PassesUnfold(b, next, depth, st, fuel);
    if first.Some? {
      assert Passes(b, next - 1, depth + 1, first.value, fuel) == Some(first.value);
    }
  }

  /** The step of `PassesLast`: the claim for the passes after a completed first pass gives it for all of them. */
  lemma PassesLastStep(b: Board, next: nat, n: nat, depth: nat, last: nat, st: Root, x: Root, fuel: nat)
    requires depth > 0 && next == n + 1 && last == depth + n && n > 0
    requires RootPass(b, 0, depth, st, fuel) == Some(x)
    ensures Passes(b, next, depth, st, fuel) == PassAfter(b, Passes(b, n, depth, st, fuel), last, fuel)
    decreases n, 0
  {
    PassesLast(b, next - 1, n - 1, depth + 1, last, x, fuel);
    var first := RootPass(b, 0, depth, st, fuel);
    PassesUnfold(b, next, depth, st, fuel);
    PassesUnfold(b, n, depth, st, fuel);
    assert PassesThen(b, first, next - 1, depth + 1, fuel) == Passes(b, next - 1, depth + 1, x, fuel);
    assert PassesThen(b, first, n - 1, depth + 1, fuel) == Passes(b, n - 1, depth + 1, x, fuel);
  }
}

=== FILE: optional.dfy ===
/** An optional value: `None` stands for an absent result or a failed operation. */
module Optional {

  datatype Option<+T> = None | Some(value: T)
}

=== FILE: player.dfy ===
/** The two players of the game. */
module Players {

  datatype Player = Red | Blue

  /** The other player. */
  function Opponent(p: Player): (q: Player)
    ensures q != p
  {
    match p
    case Red => Blue
    case Blue => Red
  }

  /** Swapping twice gives back the original player. */
  lemma OpponentInvolution(p: Player)
    ensures Opponent(Opponent(p)) == p
  {
  }

  /** With only two players, every player is either `p` or the opponent of `p`. */
  lemma TwoPlayers(p: Player, q: Player)
    ensures q == p || q == Opponent(p)
    ensures q == Opponent(p) <==> q != p
  {
  }
}

=== FILE: scenarios.dfy ===
/**
 * Concrete games on the 5x5 board: the starting position, a single pop, a
 * capture, a chain of two pops, the end-of-game test and two opening turns.
 * Each lemma holds for every fuel bound large enough for the pops involved.
 */
module Scenarios {

  import opened Optional
  import opened Players
  import opened Sequences
  import opened Coords
  import opened Squares
  import opened Boards

  /** In a fresh setup each player has exactly one legal move: their own square. */
  lemma OpeningMoves(red: Coordinates, blue: Coordinates)
    requires red != blue
    ensures ValidMoves(Setup(red, blue)) == [red]
    ensures ValidMoves(Board(Setup(red, blue).grid, Blue)) == [blue]
  {
    SetupOnlyMove(Setup(red, blue).grid, red, blue, Red);
    SetupOnlyMove(Setup(red, blue).grid, red, blue, Blue);
    assert Board(Setup(red, blue).grid, Red) == Setup(red, blue);
  }

  /** On the starting grid, `p`'s only square is its own starting square. */
  lemma SetupOnlyMove(g: Grid, red: Coordinates, blue: Coordinates, p: Player)
    requires red != blue && g == Setup(red, blue).grid
    ensures ValidMoves(Board(g, p)) == [if p == Red then red else blue]
  {
    var c := if p == Red then red else blue;
    assert forall d: Coordinates :: At(g, d).Owner() == Some(p) <==> d == c;
    OnlyMove(Board(g, p), c);
  }

  /** A board where the player to move owns one square has exactly that square as its moves. */
  lemma OnlyMove(b: Board, c: Coordinates)
    ensures (forall d: Coordinates :: At(b.grid, d).Owner() == Some(b.turn) <==> d == c) ==>
      ValidMoves(b) == [c]
  {
    ValidMovesOrdered(b);
    SingletonWithoutRepetitions(ValidMoves(b), c);
  }

  /**
   * The grid Red's opening pop leaves behind when Blue's square is not next
   * to Red's: Red's square empty, its neighbours Red 1s, Blue's 3 untouched,
   * everything else empty.
   */
  ghost predicate AfterOpening(g: Grid, red: Coordinates, blue: Coordinates)
  {
    forall c: Coordinates {:trigger At(g, c)} :: At(g, c) ==
      if c == red then Empty
      else if c in Neighbors(red) then Occupied(Red, 1)
      else if c == blue then Occupied(Blue, 3)
      else Empty
  }

  /**
   * Red's first move always pops its 3: the square empties and every
   * neighbour becomes a Red 1, as long as Blue's square is not next to it.
   */
  lemma OpeningPop(red: Coordinates, blue: Coordinates, fuel: nat)
    requires red != blue && blue !in Neighbors(red)
    requires fuel > 0
    ensures MakeMove.requires(Setup(red, blue), red, fuel)
    ensures var r := MakeMove(Setup(red, blue), red, fuel);
      && r.Some?
      && r.value.turn == Blue
      && AfterOpening(r.value.grid, red, blue)
  {
    var b := Setup(red, blue);
    assert At(b.grid, red) == Occupied(Red, 3);
    assert forall n :: n in Neighbors(red) ==> At(b.grid, n) == Empty by {
      NeighborsDistinct(red);
    }
    MoveSinglePop(b, red, fuel);
    var g := MakeMove(b, red, fuel).value.grid;
    forall c: Coordinates
      ensures At(g, c) ==
        if c == red then Empty
        else if c in Neighbors(red) then Occupied(Red, 1)
        else if c == blue then Occupied(Blue, 3)
        else Empty
    {
      if c in Neighbors(red) {
        assert At(b.grid, c) == Empty;
      }
    }
  }

  /**
   * With Red at (0,0) and Blue at (4,4), Red's pop leaves Red 1s at (1,0)
   * and (0,1). The parameters `red` and `blue` stand for the fixed cells
   * (0,0) and (4,4); they are parameters only so that the solver does not
   * unfold literal boards.
   */
  lemma SimplePop(red: Coordinates, blue: Coordinates, fuel: nat)
    requires red == Position(0, 0) && blue == Position(4, 4)
    requires fuel > 0
    ensures MakeMove.requires(Setup(red, blue), red, fuel)
    ensures var r := MakeMove(Setup(red, blue), red, fuel);
      && r.Some?
      && r.value.turn == Blue
      && At(r.value.grid, Position(0, 0)) == Empty
      && At(r.value.grid, Position(1, 0)) == Occupied(Red, 1)
      && At(r.value.grid, Position(0, 1)) == Occupied(Red, 1)
      && At(r.value.grid, Position(4, 4)) == Occupied(Blue, 3)
  {
    assert Neighbors(red) == [Position(1, 0), Position(0, 1)];
    OpeningPop(red, blue, fuel);
  }

  /** Setup with a Blue 2 placed next to Red's square, Red to move. */
  function CaptureBoard(red: Coordinates, blue: Coordinates, captured: Coordinates): Board {
    Board(Put(Setup(red, blue).grid, captured, Occupied(Blue, 2)), Red)
  }

  /** Red's square is still its only move, and every neighbour of it holds less than 3. */
  lemma CaptureBoardPops(red: Coordinates, blue: Coordinates, captured: Coordinates)
    requires red != blue && blue !in Neighbors(red) && captured in Neighbors(red)
    ensures var b := CaptureBoard(red, blue, captured);
      && At(b.grid, red) == Occupied(Red, 3)
      && At(b.grid, captured) == Occupied(Blue, 2)
      && forall n :: n in Neighbors(red) ==> At(b.grid, n).Value() < 3
  {
    var b := CaptureBoard(red, blue, captured);
    var s := Setup(red, blue);
    NeighborsDistinct(red);
    assert At(b.grid, red) == Occupied(Red, 3);
    forall n | n in Neighbors(red)
      ensures At(b.grid, n).Value() < 3
    {
      if n != captured {
        assert At(b.grid, n) == At(s.grid, n) == Empty;
      }
    }
  }

  /** A Blue 2 next to Red's popping 3 is captured and becomes a Red 3. */
  lemma PopCapturesOpponent(red: Coordinates, blue: Coordinates, captured: Coordinates, fuel: nat)
    requires red != blue && blue !in Neighbors(red) && captured in Neighbors(red)
    requires fuel > 0
    ensures var b := CaptureBoard(red, blue, captured);
      && MakeMove.requires(b, red, fuel)
      && MakeMove(b, red, fuel).Some?
      && At(MakeMove(b, red, fuel).value.grid, captured) == Occupied(Red, 3)
  {
    CaptureBoardPops(red, blue, captured);
    MoveSinglePop(CaptureBoard(red, blue, captured), red, fuel);
  }

  /** Two Red 3 stacks at `corner` and `next`, on an otherwise empty board, Red to move. */
  function TwoStacks(corner: Coordinates, next: Coordinates): Board {
    var g := Put(NewBoard(Red).grid, corner, Occupied(Red, 3));
    Board(Put(g, next, Occupied(Red, 3)), Red)
  }

  /**
   * The squares a corner chain touches: Red 3s at the corner (0,0) and at
   * (0,1), and the other squares next to them, (1,0), (1,1) and (0,2), empty.
   * `corner` and `next` stand for the fixed cells (0,0) and (0,1).
   */
  ghost predicate CornerStacks(g: Grid, corner: Coordinates, next: Coordinates)
  {
    && corner == Position(0, 0) && next == Position(0, 1)
    && At(g, corner) == Occupied(Red, 3) && At(g, next) == Occupied(Red, 3)
    && At(g, Position(1, 0)) == Empty && At(g, Position(1, 1)) == Empty
    && At(g, Position(0, 2)) == Empty
  }

  /** Of the corner's neighbours (1,0) and (0,1), only the Red 3 at (0,1) reaches 4. */
  lemma CornerReaching(g: Grid, corner: Coordinates, next: Coordinates)
    requires corner == Position(0, 0) && next == Position(0, 1)
    requires At(g, next) == Occupied(Red, 3) && At(g, Position(1, 0)) == Empty
    ensures Reaching(g, Neighbors(corner)) == [next]
  {
    var below := Position(1, 0);
    assert Neighbors(corner) == [below, next];
    assert [below, next][1..] == [next] && [next][1..] == [];
    assert Reaching(g, [next]) == [next];
  }

  /** The first pop of the chain: the corner empties, (1,0) becomes a Red 1 and (0,1) reaches 4. */
  lemma ChainFirstPop(g0: Grid, corner: Coordinates, next: Coordinates)
    requires CornerStacks(g0, corner, next)
    ensures var g := Put(g0, corner, Occupied(Red, 4));
      var first := PopStep(g, Red, [corner]);
      && first.1 == [next]
      && At(first.0, next) == Occupied(Red, 4)
      && At(first.0, Position(1, 0)) == Occupied(Red, 1)
      && At(first.0, Position(1, 1)) == Empty
      && At(first.0, Position(0, 2)) == Empty
  {
    var g := Put(g0, corner, Occupied(Red, 4));
    assert At(g, next) == Occupied(Red, 3) && At(g, Position(1, 0)) == Empty;
    assert At(g, Position(1, 1)) == Empty && At(g, Position(0, 2)) == Empty;
    var first := PopStep(g, Red, [corner]);
    assert first.1 == [next] by {
      CornerReaching(g, corner, next);
      PopStepOrder(g, Red, [corner]);
      assert Top([corner]) == corner && [corner][..0] == [];
    }
    assert Top([corner]) == corner;
    assert Neighbors(corner) == [Position(1, 0), next];
  }

  /** The second pop: (0,1) empties and its three neighbours become Red 1s; nothing reaches 4. */
  lemma ChainSecondPop(h: Grid, corner: Coordinates, next: Coordinates, fuel: nat)
    requires corner == Position(0, 0) && next == Position(0, 1)
    requires At(h, corner) == Empty && At(h, Position(1, 1)) == Empty && At(h, Position(0, 2)) == Empty
    requires fuel > 0
    ensures var k := PopStep(h, Red, [next]).0;
      && Drain(h, Red, [next], [], fuel) == Some(Chain(k, [next]))
      && At(k, next) == Empty
      && At(k, corner) == Occupied(Red, 1)
      && At(k, Position(0, 2)) == Occupied(Red, 1)
      && At(k, Position(1, 1)) == Occupied(Red, 1)
      && At(k, Position(1, 0)) == At(h, Position(1, 0))
  {
    assert Neighbors(next) == [Position(1, 1), corner, Position(0, 2)];
    DrainSinglePop(h, Red, next, fuel);
    PopAlone(h, Red, next);
  }

  /**
   * The chain reaction of playing the corner: the corner pops, pushing
   * (0,1) to 4, which pops in turn; the corner is refilled with a Red 1.
   */
  lemma ChainResolve(b: Board, corner: Coordinates, next: Coordinates, fuel: nat)
    requires b.turn == Red && CornerStacks(b.grid, corner, next)
    requires fuel > 1
    ensures var r := Resolve(b, corner, fuel);
      && r.Some?
      && r.value.popped == [corner, next]
      && At(r.value.grid, next) == Empty
      && At(r.value.grid, corner) == Occupied(Red, 1)
      && At(r.value.grid, Position(0, 2)) == Occupied(Red, 1)
      && At(r.value.grid, Position(1, 1)) == Occupied(Red, 1)
      && At(r.value.grid, Position(1, 0)) == Occupied(Red, 1)
  {
    var g := Put(b.grid, corner, Occupied(Red, 4));
    assert Resolve(b, corner, fuel) == Drain(g, Red, [corner], [], fuel) by {
      assert At(b.grid, corner).Increment() == Occupied(Red, 4);
    }
    ChainFirstPop(b.grid, corner, next);
    var h := PopStep(g, Red, [corner]).0;
    assert At(h, corner) == Empty by {
      PopAlone(g, Red, corner);
    }
    ChainSecondPop(h, corner, next, fuel - 1);
    var k := PopStep(h, Red, [next]).0;
    assert PopStep(g, Red, [corner]) == (h, [next]);
    assert Drain(h, Red, [next], [], fuel - 1) == Some(Chain(k, [next]));
    DrainOnePopThen(g, Red, corner, fuel, Chain(k, [next]));
    assert [corner] + [next] == [corner, next];
  }

  /** Draining one pending pop is that pop followed by draining what it pushed. */
  lemma DrainOnePopThen(g: Grid, mover: Player, t: Coordinates, fuel: nat, rest: Chain)
    requires fuel > 0
    requires var step := PopStep(g, mover, [t]);
      Drain(step.0, mover, step.1, [], fuel - 1) == Some(rest)
    ensures Drain(g, mover, [t], [], fuel) == Some(Chain(rest.grid, [t] + rest.popped))
  {
    DrainByPops(g, mover, [t], fuel);
    assert Top([t]) == t;
  }

  /**
   * Playing the corner (0,0) next to a second Red 3 at (0,1) pops the
   * corner, which pushes (0,1) to 4 and pops it too: (0,1) ends empty and
   * the corner is refilled with a Red 1. The parameters `corner` and `next`
   * stand for the fixed cells (0,0) and (0,1).
   */
  lemma ChainReaction(corner: Coordinates, next: Coordinates, fuel: nat)
    requires corner == Position(0, 0) && next == Position(0, 1)
    requires fuel > 1
    ensures MakeMove.requires(TwoStacks(corner, next), corner, fuel)
    ensures var r := MakeMove(TwoStacks(corner, next), corner, fuel);
      && r.Some?
      && At(r.value.grid, next) == Empty
      && At(r.value.grid, corner) == Occupied(Red, 1)
      && At(r.value.grid, Position(0, 2)) == Occupied(Red, 1)
      && At(r.value.grid, Position(1, 1)) == Occupied(Red, 1)
      && At(r.value.grid, Position(1, 0)) == Occupied(Red, 1)
  {
    var b := TwoStacks(corner, next);
    assert CornerStacks(b.grid, corner, next);
    assert corner in ValidMoves(b);
    ChainResolve(b, corner, next, fuel);
  }

  /** The empty board is not over; a board where only Red owns a square is. */
  lemma GameOverTest()
    ensures !IsGameOver(NewBoard(Red))
    ensures IsGameOver(Board(Put(NewBoard(Red).grid, Position(0, 0), Occupied(Red, 1)), Red))
  {
    var g := Put(NewBoard(Red).grid, Position(0, 0), Occupied(Red, 1));
    assert At(g, Position(0, 0)).Owner() == Some(Red);
    assert forall c: Coordinates :: At(g, c).Owner() != Some(Blue);
  }

  /** On that grid Blue's own square is Blue's only move. */
  lemma AfterOpeningOnlyMove(b: Board, red: Coordinates, blue: Coordinates)
    requires red != blue && blue !in Neighbors(red)
    requires b.turn == Blue && AfterOpening(b.grid, red, blue)
    ensures ValidMoves(b) == [blue]
  {
    forall d: Coordinates
      ensures At(b.grid, d).Owner() == Some(Blue) <==> d == blue
    {
      assert At(b.grid, d) ==
        if d == red then Empty
        else if d in Neighbors(red) then Occupied(Red, 1)
        else if d == blue then Occupied(Blue, 3)
        else Empty;
    }
    OnlyMove(b, blue);
  }

  /** On that grid Blue's square holds 3 and none of its neighbours can pop with it. */
  lemma AfterOpeningBlueReady(g: Grid, red: Coordinates, blue: Coordinates)
    requires red != blue && blue !in Neighbors(red)
    requires AfterOpening(g, red, blue)
    ensures At(g, blue) == Occupied(Blue, 3)
    ensures forall n :: n in Neighbors(blue) ==> At(g, n).Value() < 3
  {
    assert At(g, blue) == Occupied(Blue, 3);
    NeighborsDistinct(blue);
    forall n | n in Neighbors(blue)
      ensures At(g, n).Value() < 3
    {
      assert n != blue;
    }
  }

  /** Blue's reply to the opening pop: Blue's 3 pops in turn and its neighbours become Blue. */
  lemma BlueReply(b: Board, blue: Coordinates, fuel: nat)
    requires b.turn == Blue && At(b.grid, blue) == Occupied(Blue, 3)
    requires forall n :: n in Neighbors(blue) ==> At(b.grid, n).Value() < 3
    requires fuel > 0
    ensures blue in ValidMoves(b)
    ensures var second := MakeMove(b, blue, fuel);
      && second.Some?
      && second.value.turn == Red
      && At(second.value.grid, blue) == Empty
      && forall n :: n in Neighbors(blue) ==> At(second.value.grid, n).Owner() == Some(Blue)
  {
    NeighborsDistinct(blue);
    MoveSinglePop(b, blue, fuel);
  }

  /** A Red square out of reach of Blue's reply survives it, so the game goes on. */
  lemma BlueReplyKeeps(b: Board, blue: Coordinates, kept: Coordinates, fuel: nat)
    requires b.turn == Blue && At(b.grid, blue) == Occupied(Blue, 3)
    requires forall n :: n in Neighbors(blue) ==> At(b.grid, n).Value() < 3
    requires At(b.grid, kept) == Occupied(Red, 1) && kept != blue && kept !in Neighbors(blue)
    requires fuel > 0
    ensures blue in ValidMoves(b)
    ensures var second := MakeMove(b, blue, fuel);
      && second.Some?
      && At(second.value.grid, kept) == Occupied(Red, 1)
      && !IsGameOver(second.value)
  {
    BlueReply(b, blue, fuel);
    MoveSinglePop(b, blue, fuel);
    var second := MakeMove(b, blue, fuel).value;
    assert |Neighbors(blue)| >= 2 by {
      NeighborCount(blue);
    }
    BothOwnNotOver(second, kept, Neighbors(blue)[0]);
  }

  /** Every neighbour of Red's square holds a Red 1 on that grid. */
  lemma AfterOpeningKept(g: Grid, red: Coordinates, blue: Coordinates, kept: Coordinates)
    requires kept in Neighbors(red)
    requires AfterOpening(g, red, blue)
    ensures At(g, kept) == Occupied(Red, 1)
  {
    NeighborsAreAdjacent(red);
    assert kept != red;
  }

  /**
   * Two opening turns from any separated starting squares: Red's only move
   * is its own square and pops it, Blue's only move is then its own square
   * and pops it too, the turn alternates, and a Red square out of Blue's
   * reach keeps the game going.
   */
  lemma OpeningTurns(red: Coordinates, blue: Coordinates, kept: Coordinates, fuel: nat)
    requires red != blue && blue !in Neighbors(red)
    requires kept in Neighbors(red) && kept !in Neighbors(blue)
    requires fuel > 0
    ensures !IsGameOver(Setup(red, blue)) && ValidMoves(Setup(red, blue)) == [red]
    ensures MakeMove.requires(Setup(red, blue), red, fuel)
    ensures var first := MakeMove(Setup(red, blue), red, fuel);
      && first.Some?
      && first.value.turn == Blue
      && AfterOpening(first.value.grid, red, blue)
      && ValidMoves(first.value) == [blue]
      && var second := MakeMove(first.value, blue, fuel);
         && second.Some?
         && second.value.turn == Red
         && At(second.value.grid, blue) == Empty
         && (forall n :: n in Neighbors(blue) ==> At(second.value.grid, n).Owner() == Some(Blue))
         && At(second.value.grid, kept) == Occupied(Red, 1)
         && !IsGameOver(second.value)
  {
    BothOwnNotOver(Setup(red, blue), red, blue);
    SetupOnlyMove(Setup(red, blue).grid, red, blue, Red);
    OpeningPop(red, blue, fuel);
    var b1 := MakeMove(Setup(red, blue), red, fuel).value;
    assert AfterOpening(b1.grid, red, blue);
    AfterOpeningOnlyMove(b1, red, blue);
    AfterOpeningBlueReady(b1.grid, red, blue);
    AfterOpeningKept(b1.grid, red, blue, kept);
    BlueReply(b1, blue, fuel);
    BlueReplyKeeps(b1, blue, kept, fuel);
  }

  /**
   * The game-flow turns from the corners (0,0) and (4,4): Red empties (0,0)
   * and takes (0,1) and (1,0); Blue empties (4,4) and takes (4,3) and (3,4);
   * the game goes on. The parameters `red` and `blue` stand for the fixed
   * corners (0,0) and (4,4).
   */
  lemma CornerOpeningTurns(red: Coordinates, blue: Coordinates, fuel: nat)
    requires red == Position(0, 0) && blue == Position(4, 4)
    requires fuel > 0
    ensures !IsGameOver(Setup(red, blue))
    ensures Setup(red, blue).turn == Red
    ensures ValidMoves(Setup(red, blue)) == [red]
    ensures MakeMove.requires(Setup(red, blue), red, fuel)
    ensures var first := MakeMove(Setup(red, blue), red, fuel);
      && first.Some?
      && first.value.turn == Blue
      && At(first.value.grid, Position(0, 0)).Owner() == None
      && At(first.value.grid, Position(0, 1)).Owner() == Some(Red)
      && At(first.value.grid, Position(1, 0)).Owner() == Some(Red)
      && ValidMoves(first.value) == [blue]
      && var second := MakeMove(first.value, blue, fuel);
         && second.Some?
         && second.value.turn == Red
         && At(second.value.grid, Position(4, 4)).Owner() == None
         && At(second.value.grid, Position(4, 3)).Owner() == Some(Blue)
         && At(second.value.grid, Position(3, 4)).Owner() == Some(Blue)
         && !IsGameOver(second.value)
  {
    assert Neighbors(red) == [Position(1, 0), Position(0, 1)];
    assert Neighbors(blue) == [Position(3, 4), Position(4, 3)];
    OpeningTurns(red, blue, Position(0, 1), fuel);
    var first := MakeMove(Setup(red, blue), red, fuel).value;
    assert At(first.grid, Position(0, 1)) == Occupied(Red, 1);
    assert At(first.grid, Position(1, 0)) == Occupied(Red, 1);
    var second := MakeMove(first, blue, fuel).value;
    assert Position(4, 3) in Neighbors(blue) && Position(3, 4) in Neighbors(blue);
    assert At(second.grid, Position(4, 3)).Owner() == Some(Blue);
    assert At(second.grid, Position(3, 4)).Owner() == Some(Blue);
  }
}

=== FILE: sequences.dfy ===
/** Facts about sequences shared by the board and its scenarios. */
module Sequences {

  /** No element occurs twice in a sequence. */
  predicate Distinct<T(==)>(s: seq<T>) {
    forall i, j :: 0 <= i < j < |s| ==> s[i] != s[j]
  }

  /** A sequence with no members is empty. */
  lemma EmptyWithoutMembers<T>(s: seq<T>)
    ensures (forall x :: x !in s) ==> s == []
  {
    if |s| > 0 {
      assert s[0] in s;
    }
  }

  /** A sequence without repetitions whose only member is `x` is `[x]`. */
  lemma SingletonWithoutRepetitions<T>(s: seq<T>, x: T)
    ensures Distinct(s) && x in s && (forall y :: y in s ==> y == x) ==> s == [x]
  {
    if |s| > 1 {
      assert s[0] in s && s[1] in s;
    }
    if |s| > 0 {
      assert s[0] in s;
    }
  }

  /** A suffix is its first stretch followed by the rest. */
  lemma SplitAt<T>(s: seq<T>, i: nat, j: nat)
    requires i <= j <= |s|
    ensures s[i..] == s[i..j] + s[j..]
  {
  }
}

=== FILE: square.dfy ===
/** A single cell of the board: empty, or a stack owned by one player. */
module Squares {

  import opened Optional
  import opened Players

  datatype Square = Empty | Occupied(owner: Player, value: nat) {

    /** The player owning the square, if any. */
    function Owner(): (r: Option<Player>)
      ensures r.None? <==> this == Empty
    {
      match this
      case Empty => None
      case Occupied(p, _) => Some(p)
    }

    /** The stack height; an empty square counts as 0. */
    function Value(): (v: nat)
      ensures Occupied? ==> v == value
    {
      match this
      case Empty => 0
      case Occupied(_, v) => v
    }

    /** One more on an occupied stack; an empty square stays as it is. */
    function Increment(): (r: Square)
      ensures r.Owner() == Owner()
      ensures r.Value() == if Empty? then 0 else Value() + 1
    {
      match this
      case Empty => Empty
      case Occupied(p, v) => Occupied(p, v + 1)
    }

    /** Changes only the owner; an empty square becomes a zero-height stack of `p`. */
    function SetOwner(p: Player): (r: Square)
      ensures r.Owner() == Some(p)
      ensures r.Value() == Value()
    {
      match this
      case Empty => Occupied(p, 0)
      case Occupied(_, v) => Occupied(p, v)
    }

    /** Clears the square. */
    function Reset(): (r: Square)
      ensures r.Owner() == None && r.Value() == 0
    {
      Default()
    }
  }

  /** The default square. */
  function Default(): (s: Square)
    ensures s.Owner() == None && s.Value() == 0
  {
    Empty
  }

  /** A stack of height `v` owned by `p`. */
  function New(p: Player, v: nat): (s: Square)
    ensures s.Owner() == Some(p) && s.Value() == v
  {
    Occupied(p, v)
  }

  /** A square is fully described by its owner and its value. */
  lemma DeterminedByAccessors(s: Square, t: Square)
    requires s.Owner() == t.Owner()
    requires s.Owner().Some? ==> s.Value() == t.Value()
    ensures s == t
  {
  }

  /** Capturing a square: it ends owned by `p` with one more than it had, whatever it was before. */
  lemma SetOwnerThenIncrement(s: Square, p: Player)
    ensures s.SetOwner(p).Increment() == Occupied(p, s.Value() + 1)
    ensures Empty.SetOwner(p).Increment() == Occupied(p, 1)
  {
  }

  /** Resetting twice is the same as resetting once. */
  lemma ResetIdempotent(s: Square)
    ensures s.Reset().Reset() == s.Reset()
    ensures s.Reset() == Default()
  {
  }
}
